=== FILE: README.md ===
# A Dafny model of a line-at-a-time markdown block parser

This project models `src/parser.ts` of a small markdown parser written in
TypeScript. The parser recognizes a subset of CommonMark block syntax:
thematic breaks, ATX and setext headings, indented and fenced code blocks,
paragraphs and block quotes. It reads the document one line at a time.

- A `State` holds the completed blocks (`ast`), at most one open block, and
  the nested state of an open block quote.
- `parseLine` moves a state on by one line. It tries eleven rules in a
  fixed order and applies the first one that holds.
- `close` finalizes the open block and appends it to `ast`.
- `parse` splits the text on every CR and every LF, folds `parseLine` over
  the lines, and closes what is left open.

The Dafny modules follow that structure.

| file | module | contents |
|---|---|---|
| `wrappers.dfy` | `Wrappers` | `Option` |
| `text.dfy` | `Text` | ECMAScript whitespace, `trim`, the `replace(/^ {0,n}/, "")` idiom, `split` and `join`, with their laws |
| `blocks.dfy` | `Blocks` | `Block`, `State`, and the shape of reachable states (`WellFormed`) |
| `syntax.dfy` | `LineSyntax` | one recognizer per regular expression of the parser, each a `Match*` function returning a decomposition record, paired with a `Render*` function |
| `parser.dfy` | `Parser` | `Close`, the rule selector `RuleFor`, `ParseLine`, `ParseLines`, `Parse` |
| `rules.dfy` | `LineRules` | what each rule does to the state, and the laws of `Close` |
| `syntax_facts.dfy` | `SyntaxFacts` | the recognizers restated as plain conditions on the line; the code-block texts produced on close |
| `document.dfy` | `Document` | whole documents: paragraphs, blank-line runs, fenced and indented code |

`ParseLine` and `Close` are total and faithful for every state. The code's
nested state is an `Option<State>`. The recursion of `ParseLine` terminates
on `|line|, s`:

- a quote line recurses on a strictly shorter remainder;
- a lazy continuation recurses on the same line but the nested state.

While a quote is open, its `children` hold only the nested state's
completed blocks. The full list is built when the quote is closed
(`src/parser.ts:291-295`). This is internal state and never shows in the
output.

Characters are Dafny `char`s. Whitespace, as used by `trim`, is
ECMAScript's WhiteSpace and LineTerminator sets, written out. The regular
expressions' `.` is any character but LF, CR, U+2028 and U+2029.

### Where the code differs from CommonMark

The model follows the code.

- A thematic break may mix `-`, `_` and `*` on one line (`src/parser.ts:74`).
- Only spaces count as indentation. A tab never does, so a tab-indented
  line is not indented code and no tab is stripped
  (`src/parser.ts:39`, `110`, `115`, `165`).
- Fence info is everything after the marker and its following spaces,
  trailing spaces included (`src/parser.ts:3`).
- Thematic-break and ATX lines are tried before the fence rules. They
  therefore end an open fenced code block instead of becoming its content
  (`LineRules.BreakOrHeadingEndsFence`).
- The rule against indented code inside a paragraph looks only one quote
  level down (`src/parser.ts:112`).
- A `>` line while indented code is open is not a quote. It starts a
  paragraph (`LineRules.QuoteLineAfterIndentedCode`).
- A lazily continued line is run through all the rules again in the
  nested state (`src/parser.ts:209`).
- `"\r\n"` ends a line twice, so it leaves an empty line between its
  neighbours (`Document.CrLfLeavesEmptyLine`). That empty line closes an
  open paragraph.
- Closing indented code drops only a blank first line and a blank last
  line, not every leading or trailing blank line (`SyntaxFacts.KeepInnerIsInnerLines`).

## Model

| member | source | states |
|---|---|---|
| Text.StripSpaces | src/parser.ts:39 | removes exactly min(n, number of leading spaces) characters and leaves the rest of the line as it was |
| Text.BlankIsTrimEmpty | src/parser.ts:33 | `line.trim().length === 0` holds exactly when every character of the line is whitespace |
| Text.Trim | src/parser.ts:33 | the result of `trim` is no longer than the text and neither starts nor ends with whitespace |
| Text.TrimIsSpan | src/parser.ts:204 | `trim` keeps one contiguous part of the text and removes only whitespace before and after it |
| Text.TrimOfPadded | src/parser.ts:204 | `trim` removes exactly the whitespace padding around a text that begins and ends with non-whitespace |
| Text.Split | src/parser.ts:17 | a split yields at least one piece, and no piece contains a separator |
| Text.JoinEnds | src/parser.ts:204 | a join starts with its first part and ends with its last, and its length is the parts' lengths plus one separator between each two |
| Text.SplitAppend | src/parser.ts:17 | splitting distributes over any separator character, so a text mixing CR and LF terminators splits into the lines between them |
| Text.JoinSplit | src/parser.ts:257-265 | joining the pieces of a split on `"\n"` gives the text back |
| Text.SplitJoin | src/parser.ts:17 | splitting the join of separator-free lines gives back exactly those lines |
| LineSyntax.MatchSetext | src/parser.ts:58 | a recognized underline has at most 3 spaces of indentation and a run of at least one `-` or `=`, which is the first character after the indentation |
| LineSyntax.MatchSetextRenders | src/parser.ts:58 | a recognized underline is exactly its indentation, its run and then only spaces |
| LineSyntax.SetextRoundTrip | src/parser.ts:58 | every valid underline shape is recognized, with the same decomposition |
| LineSyntax.MatchThematicBreak | src/parser.ts:74 | a recognized break has at most 3 spaces of indentation and at least three marks, each a character from `-_*`, the first of them right after the indentation |
| LineSyntax.MatchThematicBreakRenders | src/parser.ts:74 | a recognized break is exactly its indentation followed by its marks, each a break character and its spaces |
| LineSyntax.ThematicRoundTrip | src/parser.ts:74 | every valid break shape, mixed characters included, is recognized with the same marks |
| SyntaxFacts.ScanMarksMeaning | src/parser.ts:74 | on text that does not start with a space, the mark scanner succeeds exactly when the text is break characters and spaces, and then yields one mark per break character |
| SyntaxFacts.ThematicBreakMeaning | src/parser.ts:74 | a line is a break iff it has at most 3 leading spaces, then only break characters and spaces, at least three of them break characters |
| LineSyntax.MatchAtx | src/parser.ts:84 | a recognized heading line has at most 3 spaces of indentation, a `#` right after it, and a text group that is empty or starts with a space and holds no line terminator |
| LineSyntax.MatchAtxRenders | src/parser.ts:84 | a recognized heading line is exactly its indentation, its `#` run, its text group and what follows the group |
| LineSyntax.AtxRoundTrip | src/parser.ts:84 | every valid heading shape is recognized with the same level and text group |
| SyntaxFacts.AtxMeaning | src/parser.ts:84 | a line is a heading iff at most 3 leading spaces are followed by 1 to 6 `#` and then a space or the end of the line |
| LineSyntax.StripClosingSequence | src/parser.ts:93 | when it changes the text, it removes a space followed by a closing run of `#` and spaces, and keeps what came before |
| LineSyntax.HeadingText | src/parser.ts:92-94 | the heading text is no longer than the captured group and neither starts nor ends with whitespace |
| LineSyntax.StripClosingWhenPresent | src/parser.ts:93 | when the text ends in a space and a closing run, the cut is made at that space |
| LineSyntax.IndentedCodeLineMeaning | src/parser.ts:110 | a line matches `^ {4,}.+` iff some position at least 4 deep, inside the leading spaces, is followed by a character that is not a line terminator |
| LineSyntax.MatchFence | src/parser.ts:3 | a recognized fence has at most 3 spaces of indentation, a run of at least three of one fence character right after it, and an info string, if any, that is non-empty, holds no line terminator and does not start with a space |
| LineSyntax.MatchFenceRenders | src/parser.ts:3 | a recognized fence line is exactly its indentation, its run, the spaces after it and its info string |
| LineSyntax.FenceRoundTrip | src/parser.ts:3 | every valid fence shape is recognized with the same marker, gap and info |
| LineSyntax.FenceMarkerRun | src/parser.ts:138-142 | stripping up to 3 spaces from a fence marker leaves exactly its run of fence characters |
| LineSyntax.ClosesFence | src/parser.ts:137-148 | a fence closes the open one iff it has no info string and the open marker, less up to 3 spaces, is non-empty, starts with the fence's character and is no longer than the fence's run |
| LineSyntax.FenceIndent | src/parser.ts:220-224 | the indentation taken from a marker is its run of leading spaces, capped at 3 |
| SyntaxFacts.FenceIndentOfMarker | src/parser.ts:220-224 | the indentation taken from a recognized marker is the fence's own indentation |
| LineSyntax.MatchQuote | src/parser.ts:165 | a recognized quote line has at most 3 spaces of indentation and `>` right after it; its remainder holds no line terminator and is strictly shorter than the line |
| LineSyntax.MatchQuoteRenders | src/parser.ts:165 | a recognized quote line is exactly its indentation, `>`, the optional space and the remainder |
| LineSyntax.QuoteRoundTrip | src/parser.ts:165 | every valid quote shape is recognized with the same remainder |
| Parser.Close | src/parser.ts:252-305 | closing leaves nothing open, is the identity when nothing is open, otherwise appends one block of the open block's kind after the old `ast`, and keeps states well formed |
| Parser.BlankLine | src/parser.ts:33-55 | a blank line keeps the completed blocks as a prefix and never adds a block |
| Parser.IndentedLine | src/parser.ts:109-132 | an indented code line adds at most one block and keeps the old blocks as a prefix |
| Parser.FenceBody | src/parser.ts:219-235 | a line inside a fence leaves the completed blocks and the block count unchanged |
| Parser.IsLaziness | src/parser.ts:245-250 | laziness holds iff the innermost state of the nested chain has an open paragraph |
| Parser.ChildOrEmpty | src/parser.ts:28-31 | the state handed to the nested parse is well formed; it holds exactly the open quote's children, or is the fresh default when no quote is open |
| Parser.IndentedCodeAllowed | src/parser.ts:110-113 | when rule 5 is allowed while a paragraph is still lazily open, that paragraph lies at least two quote levels down |
| Parser.CloseAndOpen | src/parser.ts:76-80 | the completed blocks are those of closing the state, and the given block becomes the open one |
| Parser.RuleFor | src/parser.ts:26-243 | the blank rule is chosen exactly for blank lines, and every other rule only when its condition holds |
| Parser.ParseLine | src/parser.ts:26-243 | a line never removes a completed block, adds at most one block, and keeps the state well formed |
| Parser.SplitLines | src/parser.ts:17 | every text, the empty one included, has at least one line |
| Parser.ParseLines | src/parser.ts:18-21 | the fold keeps the completed blocks as a prefix and adds at most one block per line |
| Parser.Parse | src/parser.ts:16-24 | the empty document has no blocks, and no document has more blocks than lines |
| LineRules.DeepIndentHasNoMarker | src/parser.ts:58-165 | a line with 4 or more leading spaces is none of setext underline, break, heading, fence or quote |
| LineRules.PlainByFirstCharacter | src/parser.ts:58-165 | a line whose first non-space character is neither whitespace nor one of the marker characters `-`, `=`, `_`, `*`, `#`, backtick, `~`, `>` matches no marker |
| LineRules.BlankRunActsAsOne | src/parser.ts:33-55 | outside code a blank line closes the open block, and a second blank line changes nothing |
| LineRules.BlankLineKeptInCode | src/parser.ts:34-53 | inside code a blank line is appended to the open block, less up to 4 spaces in indented code and verbatim in a fence |
| LineRules.SetextUnderlineMakesHeading | src/parser.ts:58-71 | an underline turns the open paragraph into a still-open heading with its text, level 2 for `-` and 1 for `=` |
| LineRules.SetextNeedsParagraph | src/parser.ts:58-71 | without an open paragraph at this level, the block an underline leaves open at this level is not a heading (a lazy continuation may still make one inside an open quote) |
| LineRules.SetextUnderlineBecomesText | src/parser.ts:236-242 | an underline that is not a break, with no paragraph or fence open and no lazy continuation, closes the open block and opens a paragraph of its trimmed text |
| LineRules.ThematicBreakClosesOpenBlock | src/parser.ts:74-81 | unless an underline applies, a break closes whatever is open and becomes the open block (the `{...this.close(state), openBlock}` idiom, `Parser.CloseAndOpen`) |
| LineRules.StarOrUnderscoreBreakInterruptsParagraph | src/parser.ts:58-81 | a `*` or `_` break completes an open paragraph and opens a break |
| LineRules.AtxLineOpensHeading | src/parser.ts:84-106 | a heading line closes the open block and opens a heading whose level is the number of `#` and whose text is the rest without its closing sequence, trimmed |
| LineRules.IndentedLineExtendsCode | src/parser.ts:116-124 | a code line appends itself without its first 4 spaces to open indented code |
| LineRules.IndentedLineOpensCode | src/parser.ts:125-131 | where indented code is allowed, a code line closes the open block and opens code holding the line without its first 4 spaces |
| LineRules.IndentedRuleChosen | src/parser.ts:109-115 | a non-blank code line goes to the indented code rule whenever no paragraph or fence forbids it |
| LineRules.IndentedLineContinuesParagraph | src/parser.ts:111 | a deeply indented line continues an open paragraph with its trimmed text |
| LineRules.IndentedLineInQuotedParagraph | src/parser.ts:112 | an indented line is not code when the quote's nested paragraph is open; it goes to the nested state |
| LineRules.FenceLineOpens | src/parser.ts:151-160 | outside a fence a fence line closes the open block and opens an empty fence with the line's `marker` group (indentation and fence run, `LineSyntax.FenceMarker`) and info |
| LineRules.ClosesFenceMeaning | src/parser.ts:136-150 | a fence closes the open one iff it has no info, the same fence character, and a run at least as long |
| LineRules.FenceLineCloses | src/parser.ts:144-150 | a closing fence line completes the fenced block without adding itself to the text |
| LineRules.FenceContentLine | src/parser.ts:219-235 | inside a fence a line that is not a break, heading or closing fence is appended, less the opening fence's indentation unless it is blank (line 231, `LineRules.FenceContentText`) |
| LineRules.BreakOrHeadingEndsFence | src/parser.ts:74-106 | a break or heading line ends an open fence |
| LineRules.QuoteLineFeedsNested | src/parser.ts:165-196 | a quote line feeds its remainder to the quote's nested state, or to a fresh one when no quote is open, and the quote's children follow the nested state |
| LineRules.QuoteLineAfterIndentedCode | src/parser.ts:166-169 | a quote line while indented code is open closes the code and opens a paragraph |
| LineRules.PlainLineContinuesParagraph | src/parser.ts:199-207 | an unmarked line appends its trimmed text to the open paragraph |
| LineRules.NewParagraphAfterLeafBlock | src/parser.ts:236-242 | a line no marker rule takes ends an open heading, thematic break or indented code block and opens a paragraph of its trimmed text |
| LineRules.PlainLineStartsParagraph | src/parser.ts:236-242 | an unmarked line with nothing open opens a paragraph of its trimmed text |
| LineRules.PlainLineAgainstQuote | src/parser.ts:208-242 | an unmarked line reaches the quote's nested state exactly when laziness holds, and otherwise closes the quote and starts a paragraph |
| LineRules.CloseLeavesNothingOpen | src/parser.ts:252-305 | closing a well-formed state leaves neither an open block nor a nested state |
| LineRules.CloseIdempotent | src/parser.ts:252-305 | closing twice is closing once |
| LineRules.CloseFenced | src/parser.ts:274-288 | closing a fence appends it with the first line of its text dropped |
| LineRules.CloseIndented | src/parser.ts:256-273 | closing indented code appends it with its text filtered |
| LineRules.CloseKeepsLeafBlock | src/parser.ts:301-304 | a paragraph, heading or break is appended unchanged |
| LineRules.CloseQuoteClosesNested | src/parser.ts:289-299 | closing a quote appends it with the closed nested state's blocks as children |
| SyntaxFacts.KeepInnerIsInnerLines | src/parser.ts:259-264 | the close filter drops only the first line and the last line, and only when blank |
| SyntaxFacts.IndentedCodeTextOfLines | src/parser.ts:256-265 | the closed text of indented code is its lines, a blank first and last line dropped, joined by newlines |
| SyntaxFacts.FencedCodeTextOfLines | src/parser.ts:275-280 | the closed text of a fence is its body lines joined by newlines |
| Document.SplitLinesOfJoin | src/parser.ts:17 | a document made of lines without CR or LF splits back into exactly those lines |
| Document.CrLfLeavesEmptyLine | src/parser.ts:17 | a CRLF pair yields an empty line between its neighbours |
| Document.ParseLinesAppend | src/parser.ts:18-21 | folding two runs of lines is folding the second from the result of the first |
| Document.ParseOfLines | src/parser.ts:16-24 | the blocks of a document are the closed result of folding its lines from the empty state |
| Document.PlainLinesExtendParagraph | src/parser.ts:199-207 | a run of unmarked lines appends their trimmed texts to the open paragraph, one per line |
| Document.ParagraphDocument | src/parser.ts:199-242 | a document of unmarked lines whose first line is not an indented code line is one paragraph of its trimmed lines joined by newlines |
| Document.BlankLinesKeepClosedState | src/parser.ts:54 | blank lines leave a state with nothing open unchanged |
| Document.ParagraphThenBlankLines | src/parser.ts:33-55 | a paragraph line followed by blank lines leaves one completed paragraph and nothing open |
| Document.BlankLinesSeparateParagraphs | src/parser.ts:33-55 | any run of blank lines between two unmarked lines separates two paragraphs |
| Document.ContentLinesExtendFence | src/parser.ts:219-235 | a run of content lines appends their texts to the open fence, one per line |
| Document.FencedDocument | src/parser.ts:134-162 | an opening fence, content lines and a closing fence make one fenced block with the content texts, the marker and the info |
| Document.UnclosedFenceDocument | src/parser.ts:274-288 | a fence left open to the end of the document is closed with all its content lines |
| Document.CodeLinesExtendCode | src/parser.ts:34-124 | code and blank lines append their text without up to 4 spaces to open indented code |
| Document.IndentedCodeDocument | src/parser.ts:109-132 | a document of indented code and blank lines is one code block of its de-indented lines, a blank last line dropped |

## Left out

- The `state` field of class `Parser` persists between calls to `parse`
  (`src/parser.ts:12-24`), so a reused instance carries its state into the
  next document. `Parser.Parse` models one call on a fresh instance.
- The `Block` type is declared in `./types`, which is not part of this
  model. It is reconstructed from its uses. Inline content is not parsed,
  and text payloads are opaque strings.
- JavaScript strings are sequences of UTF-16 code units. The model works
  on Unicode scalar values. Every character the parser tests for lies in
  the Basic Multilingual Plane, so no rule depends on the difference.
- The regular expressions are not given a general semantics. Each of the
  five line-shape expressions (`src/parser.ts:3`, `58`, `74`, `84`, `165`)
  is a hand-written recognizer with both round trips proved. The others are
  hand-written functions pinned down by a characterization instead:
  `/^ {4,}.+/` (line 110) by `LineSyntax.IndentedCodeLineMeaning`,
  `/ #{1,} {0,}$/` (line 93) by the contract of
  `LineSyntax.StripClosingSequence` with `LineSyntax.StripClosingWhenPresent`,
  `/^( {1,3})/` (line 220) by the contract of `LineSyntax.FenceIndent`, and
  the `^ {0,n}` strips (lines 39, 115, 139, 142, 231) by the contract of
  `Text.StripSpaces`.
- Call-stack depth for deeply nested quotes is not modelled. There is no
  I/O, clock or concurrency in the code.
- The concrete inputs of `src/__tests__/index.test.ts` are not restated as
  lemmas. Evaluating the recognizers on literal strings is costly for the
  verifier. The general lemmas cover the shapes those tests exercise.
- LineRules.CloseLeavesNothingOpen: requires a well-formed state. The code
  returns a state with nothing open unchanged, so a malformed state
  carrying a nested state without an open quote keeps that nested state.
  `Parser.ParseLines` keeps every state reached from the empty state well
  formed.
- Document.IndentedCodeDocument: covers documents whose first line is
  indented code and whose other lines are code or blank. Mixed documents
  follow from the per-line lemmas of `LineRules`.
- Document.FencedDocument: covers a single fence whose body lines are all
  content. Other documents follow from the per-line lemmas of `LineRules`.

=== FILE: blocks.dfy ===
/** The parser's data: the block nodes it emits and the state it threads
    from line to line. */
module Blocks {
  import opened Wrappers

  /** A heading level is one of 1 through 6. */
  type HeadingLevel = n: int | 1 <= n <= 6 witness 1

  /** One block-level node. Text payloads are opaque strings; inline
      content is not parsed. */
  datatype Block =
    | Paragraph(text: string)
    | ThematicBreak
    | Heading(level: HeadingLevel, text: string)
    | IndentedCode(text: string)
      /** `marker` is the opening fence with its indentation, `info` what
          follows it on the opening line. */
    | FencedCode(marker: string, text: string, info: Option<string>)
    | BlockQuote(children: seq<Block>)

  /** The completed blocks `ast`, at most one open block, and the nested
      state of an open block quote. */
  datatype State = State(ast: seq<Block>, open: Option<Block>, child: Option<State>) {

    predicate OpenParagraph() { open.Some? && open.value.Paragraph? }
    predicate OpenIndented() { open.Some? && open.value.IndentedCode? }
    predicate OpenFenced() { open.Some? && open.value.FencedCode? }
    predicate OpenQuote() { open.Some? && open.value.BlockQuote? }

    /** A code block (indented or fenced) is open at this level. */
    predicate OpenCode() { OpenIndented() || OpenFenced() }
  }

  /** The state a document, or a freshly opened quote, starts from. */
  const Empty := State([], None, None)

  /** The shape every reachable state has: a nested state exists exactly
      when the open block is a block quote, that quote's `children` are the
      nested state's completed blocks, and the nested state is well formed
      in turn. */
  predicate WellFormed(s: State)
    decreases s
  {
    match s.child
    case None => !s.OpenQuote()
    case Some(c) => s.open == Some(BlockQuote(c.ast)) && WellFormed(c)
  }

  /** Two blocks are of the same kind. */
  predicate SameKind(a: Block, b: Block) {
    match a
    case Paragraph(_) => b.Paragraph?
    case ThematicBreak => b.ThematicBreak?
    case Heading(_, _) => b.Heading?
    case IndentedCode(_) => b.IndentedCode?
    case FencedCode(_, _, _) => b.FencedCode?
    case BlockQuote(_) => b.BlockQuote?
  }
}

=== FILE: document.dfy ===
/** Whole documents: line splitting, the fold over lines, and the blocks
    that runs of paragraph, fenced-code and indented-code lines produce. */
module Document {
  import opened Wrappers
  import opened Text
  import opened Blocks
  import opened LineSyntax
  import opened Parser
  import opened LineRules
  import opened SyntaxFacts

  // ---------------------------------------------------------------------
  // Lines

  /** No character of `line` ends a line. */
  predicate OneLine(line: string) {
    NoneIn(line, {'\r', '\n'})
  }

  /** Lines joined with LF are split back into the same lines. */
  lemma SplitLinesOfJoin(lines: seq<string>)
    requires |lines| >= 1 && forall i :: 0 <= i < |lines| ==> OneLine(lines[i])
    ensures SplitLines(Join(lines, "\n")) == lines
  {
    SplitJoin(lines, '\n', {'\r', '\n'});
  }

  /** CR and LF each end a line, so a CRLF pair leaves an empty line
      between the two lines it separates. */
  lemma CrLfLeavesEmptyLine(x: string, y: string)
    requires OneLine(x)
    ensures SplitLines(x + "\r\n" + y) == [x, ""] + SplitLines(y)
  {
    assert x + "\r\n" + y == x + ("\r" + ("\n" + y));
    SplitPrefix(x, "\r" + ("\n" + y), {'\r', '\n'});
    assert ("\r" + ("\n" + y))[1..] == "\n" + y;
    assert ("\n" + y)[1..] == y;
    assert x + [] == x;
  }

  // ---------------------------------------------------------------------
  // The fold

  /** Parsing a concatenation of line sequences is parsing one after the
      other. */
  lemma {:induction false} ParseLinesAppend(a: seq<string>, b: seq<string>, s: State)
    ensures ParseLines(a + b, s) == ParseLines(b, ParseLines(a, s))
    decreases |a|
  {
    if a != [] {
      assert (a + b)[1..] == a[1..] + b;
      ParseLinesAppend(a[1..], b, ParseLine(a[0], s));
    } else {
      assert a + b == b;
    }
  }

  /** A document given as lines parses to the closed form of the state
    the fold leaves. */
  lemma ParseOfLines(lines: seq<string>, st: State)
    requires |lines| >= 1 && forall i :: 0 <= i < |lines| ==> OneLine(lines[i])
    requires ParseLines(lines, Empty) == st
    ensures Parse(Join(lines, "\n")) == Close(st).ast
  {
    SplitLinesOfJoin(lines);
  }

  // ---------------------------------------------------------------------
  // Paragraphs

  /** Every line trimmed. */
  function TrimAll(lines: seq<string>): (r: seq<string>)
    ensures |r| == |lines|
    decreases |lines|
  {
    if lines == [] then [] else [Trim(lines[0])] + TrimAll(lines[1..])
  }

  /** Accumulating a first piece and then the rest. */
  lemma PrefixedStep(t: string, x: string, xs: seq<string>)
    ensures t + "\n" + x + Prefixed(xs, "\n") == t + Prefixed([x] + xs, "\n")
  {
    assert ([x] + xs)[1..] == xs;
  }

  /** One step of the fold, once the line's effect is known. */
  lemma FoldStep(lines: seq<string>, s: State, s': State)
    requires lines != [] && ParseLine(lines[0], s) == s'
    ensures ParseLines(lines, s) == ParseLines(lines[1..], s')
  {
  }

  /** Every line is plain. */
  predicate AllPlain(lines: seq<string>)
    decreases |lines|
  {
    lines == [] || (PlainLine(lines[0]) && AllPlain(lines[1..]))
  }

  /** An open paragraph takes a run of plain lines, each trimmed, on lines
      of their own. */
  lemma {:induction false} PlainLinesExtendParagraph(lines: seq<string>, s: State)
    requires s.OpenParagraph()
    requires AllPlain(lines)
    ensures ParseLines(lines, s)
            == s.(open := Some(Paragraph(s.open.value.text + Prefixed(TrimAll(lines), "\n"))))
    decreases |lines|
  {
    var t := s.open.value.text;
    if lines == [] {
      assert t + [] == t;
    } else {
      var x := Trim(lines[0]);
      var s' := s.(open := Some(Paragraph(t + "\n" + x)));
      PlainLineContinuesParagraph(lines[0], s);
      FoldStep(lines, s, s');
      PlainLinesExtendParagraph(lines[1..], s');
      assert [x] + TrimAll(lines[1..]) == TrimAll(lines);
      PrefixedStep(t, x, TrimAll(lines[1..]));
    }
  }

  /** A document of plain lines, the first not indented code, is one
      paragraph: its lines trimmed and joined with LF. */
  lemma ParagraphDocument(lines: seq<string>)
    requires |lines| >= 1 && forall i :: 0 <= i < |lines| ==> OneLine(lines[i])
    requires AllPlain(lines)
    requires !IsIndentedCodeLine(lines[0])
    ensures Parse(Join(lines, "\n")) == [Paragraph(Join(TrimAll(lines), "\n"))]
  {
    SplitLinesOfJoin(lines);
    var first := Trim(lines[0]);
    PlainLineStartsParagraph(lines[0], Empty);
    var s1 := State([], Some(Paragraph(first)), None);
    assert ParseLine(lines[0], Empty) == s1;
    PlainLinesExtendParagraph(lines[1..], s1);
    var text := first + Prefixed(TrimAll(lines[1..]), "\n");
    assert ParseLines(lines, Empty) == State([], Some(Paragraph(text)), None);
    CloseKeepsLeafBlock(State([], Some(Paragraph(text)), None));
    JoinCons(first, TrimAll(lines[1..]), "\n");
    assert [first] + TrimAll(lines[1..]) == TrimAll(lines);
  }

  /** Every line is blank. */
  predicate AllBlank(lines: seq<string>)
    decreases |lines|
  {
    lines == [] || (IsBlank(lines[0]) && AllBlank(lines[1..]))
  }

  /** With nothing open, blank lines change nothing. */
  lemma {:induction false} BlankLinesKeepClosedState(blanks: seq<string>, s: State)
    requires AllBlank(blanks) && s.open.None?
    ensures ParseLines(blanks, s) == s
    decreases |blanks|
  {
    if blanks != [] {
      BlankRunActsAsOne(blanks[0], blanks[0], s);
      FoldStep(blanks, s, s);
      BlankLinesKeepClosedState(blanks[1..], s);
    }
  }

  /** A run of blank lines closes the paragraph a plain first line
      opened. */
  lemma ParagraphThenBlankLines(a: string, blanks: seq<string>)
    requires PlainLine(a) && !IsIndentedCodeLine(a)
    requires |blanks| >= 1 && AllBlank(blanks)
    ensures ParseLines([a] + blanks, Empty) == State([Paragraph(Trim(a))], None, None)
  {
    var s1 := State([], Some(Paragraph(Trim(a))), None);
    var s2 := State([Paragraph(Trim(a))], None, None);
    PlainLineStartsParagraph(a, Empty);
    FoldStep([a] + blanks, Empty, s1);
    assert ([a] + blanks)[1..] == blanks;
    BlankRunActsAsOne(blanks[0], blanks[0], s1);
    CloseKeepsLeafBlock(s1);
    FoldStep(blanks, s1, s2);
    BlankLinesKeepClosedState(blanks[1..], s2);
  }

  /** A run of blank lines ends a paragraph; the next plain line starts
      another. */
  lemma BlankLinesSeparateParagraphs(a: string, blanks: seq<string>, b: string)
    requires PlainLine(a) && !IsIndentedCodeLine(a)
    requires PlainLine(b) && !IsIndentedCodeLine(b)
    requires |blanks| >= 1 && AllBlank(blanks)
    ensures ParseLines([a] + blanks + [b], Empty)
            == State([Paragraph(Trim(a))], Some(Paragraph(Trim(b))), None)
  {
    var s2 := State([Paragraph(Trim(a))], None, None);
    var s3 := State([Paragraph(Trim(a))], Some(Paragraph(Trim(b))), None);
    ParagraphThenBlankLines(a, blanks);
    ParseLinesAppend([a] + blanks, [b], Empty);
    PlainLineStartsParagraph(b, s2);
    FoldStep([b], s2, s3);
  }

  // ---------------------------------------------------------------------
  // Fenced code

  /** What each content line adds to a fence with this marker. */
  function ContentTexts(lines: seq<string>, marker: string): (r: seq<string>)
    ensures |r| == |lines|
    decreases |lines|
  {
    if lines == [] then [] else [FenceContentText(lines[0], marker)] + ContentTexts(lines[1..], marker)
  }

  /** Every line is content for a fence with this marker. */
  predicate AllContent(lines: seq<string>, marker: string)
    decreases |lines|
  {
    lines == [] || (FenceContent(lines[0], marker) && AllContent(lines[1..], marker))
  }

  /** An open fence takes a run of content lines, each on a line of its
      own. */
  lemma {:induction false} ContentLinesExtendFence(lines: seq<string>, s: State)
    requires s.OpenFenced()
    requires AllContent(lines, s.open.value.marker)
    ensures var b := s.open.value;
      ParseLines(lines, s)
      == s.(open := Some(FencedCode(b.marker, b.text + Prefixed(ContentTexts(lines, b.marker), "\n"), b.info)))
    decreases |lines|
  {
    var b := s.open.value;
    if lines == [] {
      assert b.text + [] == b.text;
    } else {
      var x := FenceContentText(lines[0], b.marker);
      var s' := s.(open := Some(FencedCode(b.marker, b.text + "\n" + x, b.info)));
      FenceContentLine(lines[0], s);
      FoldStep(lines, s, s');
      ContentLinesExtendFence(lines[1..], s');
      assert [x] + ContentTexts(lines[1..], b.marker) == ContentTexts(lines, b.marker);
      PrefixedStep(b.text, x, ContentTexts(lines[1..], b.marker));
    }
  }

  /** A content line's text is a suffix of the line. */
  lemma ContentTextIsSuffix(line: string, marker: string)
    ensures var c := FenceContentText(line, marker); |c| <= |line| && c == line[|line| - |c|..]
  {
  }

  /** A suffix of a one-line text holds no line break. */
  lemma SuffixIsOneLine(l: string, c: string)
    requires OneLine(l) && |c| <= |l| && c == l[|l| - |c|..]
    ensures NoneIn(c, {'\n'})
  {
    assert forall j :: 0 <= j < |c| ==> c[j] == l[|l| - |c| + j];
  }

  lemma ConsNoBreaks(c: string, rest: seq<string>)
    requires NoneIn(c, {'\n'}) && forall i :: 0 <= i < |rest| ==> NoneIn(rest[i], {'\n'})
    ensures forall i :: 0 <= i < |rest| + 1 ==> NoneIn(([c] + rest)[i], {'\n'})
  {
    assert forall i :: 1 <= i < |rest| + 1 ==> ([c] + rest)[i] == rest[i - 1];
  }

  /** Content texts are pieces of their lines, so they hold no line break. */
  lemma {:induction false} ContentTextsAreLines(lines: seq<string>, marker: string)
    requires forall i :: 0 <= i < |lines| ==> OneLine(lines[i])
    ensures forall i :: 0 <= i < |lines| ==> NoneIn(ContentTexts(lines, marker)[i], {'\n'})
    decreases |lines|
  {
    if lines != [] {
      var rest := ContentTexts(lines[1..], marker);
      assert forall i :: 0 <= i < |lines| - 1 ==> OneLine(lines[1..][i]);
      ContentTextsAreLines(lines[1..], marker);
      ContentTextIsSuffix(lines[0], marker);
      SuffixIsOneLine(lines[0], FenceContentText(lines[0], marker));
      assert ContentTexts(lines, marker) == [FenceContentText(lines[0], marker)] + rest;
      ConsNoBreaks(FenceContentText(lines[0], marker), rest);
    }
  }

  /** The state after an opening fence line and its content lines. */
  lemma FenceBodyState(open: string, body: seq<string>)
    requires MatchFence(open).Some?
    requires AllContent(body, FenceMarker(MatchFence(open).value))
    ensures var m := MatchFence(open).value; var mk := FenceMarker(m);
      ParseLines([open] + body, Empty)
      == State([], Some(FencedCode(mk, Prefixed(ContentTexts(body, mk), "\n"), m.info)), None)
  {
    var m := MatchFence(open).value;
    var mk := FenceMarker(m);
    FenceLineOpens(open, Empty);
    var s1 := State([], Some(FencedCode(mk, "", m.info)), None);
    assert ParseLine(open, Empty) == s1;
    ParseLinesAppend([open], body, Empty);
    ContentLinesExtendFence(body, s1);
    assert "" + Prefixed(ContentTexts(body, mk), "\n") == Prefixed(ContentTexts(body, mk), "\n");
  }

  /** The lines of a document made of a first line, a run, and a last
      line, each on a line of its own. */
  lemma FramedLinesAreLines(open: string, body: seq<string>, close: string)
    requires OneLine(open) && OneLine(close) && forall i :: 0 <= i < |body| ==> OneLine(body[i])
    ensures var lines := [open] + body + [close];
      forall i :: 0 <= i < |lines| ==> OneLine(lines[i])
  {
    var lines := [open] + body + [close];
    forall i | 0 <= i < |lines| ensures OneLine(lines[i]) {
      if 0 < i < |lines| - 1 { assert lines[i] == body[i - 1]; }
    }
  }

  /** The closing line completes the fence with exactly its content. */
  lemma ClosingLineCompletesFence(close: string, mk: string, body: seq<string>, info: Option<string>)
    requires forall i :: 0 <= i < |body| ==> OneLine(body[i])
    requires MatchFence(close).Some? && ClosesFence(MatchFence(close).value, mk)
    ensures var s := State([], Some(FencedCode(mk, Prefixed(ContentTexts(body, mk), "\n"), info)), None);
      ParseLine(close, s) == State([FencedCode(mk, Join(ContentTexts(body, mk), "\n"), info)], None, None)
  {
    var cs := ContentTexts(body, mk);
    var s := State([], Some(FencedCode(mk, Prefixed(cs, "\n"), info)), None);
    FenceLineCloses(close, s);
    ContentTextsAreLines(body, mk);
    FencedCodeTextOfLines(cs);
  }

  /** A fenced block: the opening line, content lines, and a closing line
      give one fenced code block holding exactly the content lines, with
      the opening line's marker and info string. */
  lemma FencedDocument(open: string, body: seq<string>, close: string)
    requires OneLine(open) && OneLine(close) && forall i :: 0 <= i < |body| ==> OneLine(body[i])
    requires MatchFence(open).Some?
    requires AllContent(body, FenceMarker(MatchFence(open).value))
    requires MatchFence(close).Some?
    requires ClosesFence(MatchFence(close).value, FenceMarker(MatchFence(open).value))
    ensures var m := MatchFence(open).value; var mk := FenceMarker(m);
      Parse(Join([open] + body + [close], "\n"))
      == [FencedCode(mk, Join(ContentTexts(body, mk), "\n"), m.info)]
  {
    var m := MatchFence(open).value;
    var mk := FenceMarker(m);
    FramedLinesAreLines(open, body, close);
    SplitLinesOfJoin([open] + body + [close]);
    FencedLinesState(open, body, close);
  }

  /** The fold over a framed fence leaves the completed fence and nothing
      open. */
  lemma FencedLinesState(open: string, body: seq<string>, close: string)
    requires forall i :: 0 <= i < |body| ==> OneLine(body[i])
    requires MatchFence(open).Some?
    requires AllContent(body, FenceMarker(MatchFence(open).value))
    requires MatchFence(close).Some?
    requires ClosesFence(MatchFence(close).value, FenceMarker(MatchFence(open).value))
    ensures var m := MatchFence(open).value; var mk := FenceMarker(m);
      ParseLines([open] + body + [close], Empty)
      == State([FencedCode(mk, Join(ContentTexts(body, mk), "\n"), m.info)], None, None)
  {
    var m := MatchFence(open).value;
    var mk := FenceMarker(m);
    FenceBodyState(open, body);
    var s := State([], Some(FencedCode(mk, Prefixed(ContentTexts(body, mk), "\n"), m.info)), None);
    ParseLinesAppend([open] + body, [close], Empty);
    ClosingLineCompletesFence(close, mk, body, m.info);
    assert ParseLines([close], s) == ParseLine(close, s);
  }

  /** A fence that is never closed runs to the end of the document. */
  lemma UnclosedFenceDocument(open: string, body: seq<string>)
    requires OneLine(open) && forall i :: 0 <= i < |body| ==> OneLine(body[i])
    requires MatchFence(open).Some?
    requires AllContent(body, FenceMarker(MatchFence(open).value))
    ensures var m := MatchFence(open).value; var mk := FenceMarker(m);
      Parse(Join([open] + body, "\n")) == [FencedCode(mk, Join(ContentTexts(body, mk), "\n"), m.info)]
  {
    var m := MatchFence(open).value;
    var mk := FenceMarker(m);
    var lines := [open] + body;
    assert forall i :: 0 <= i < |lines| ==> OneLine(lines[i]) by {
      forall i | 0 <= i < |lines| ensures OneLine(lines[i]) {
        if 0 < i { assert lines[i] == body[i - 1]; }
      }
    }
    SplitLinesOfJoin(lines);
    FenceBodyState(open, body);
    var cs := ContentTexts(body, mk);
    CloseFenced(State([], Some(FencedCode(mk, Prefixed(cs, "\n"), m.info)), None));
    ContentTextsAreLines(body, mk);
    FencedCodeTextOfLines(cs);
  }

  // ---------------------------------------------------------------------
  // Indented code

  /** A line an open indented code block takes: blank, or indented by
      four spaces or more. */
  predicate CodeOrBlank(line: string) {
    IsBlank(line) || IsIndentedCodeLine(line)
  }

  predicate AllCodeOrBlank(lines: seq<string>)
    decreases |lines|
  {
    lines == [] || (CodeOrBlank(lines[0]) && AllCodeOrBlank(lines[1..]))
  }

  /** Every line less up to four leading spaces. */
  function CodeTexts(lines: seq<string>): (r: seq<string>)
    ensures |r| == |lines|
    decreases |lines|
  {
    if lines == [] then [] else [StripSpaces(lines[0], 4)] + CodeTexts(lines[1..])
  }

  /** An open indented code block takes a blank or indented line with up
      to four leading spaces removed. */
  lemma CodeLineStep(line: string, a: seq<Block>, t: string)
    requires CodeOrBlank(line)
    ensures ParseLine(line, State(a, Some(IndentedCode(t)), None))
            == State(a, Some(IndentedCode(t + "\n" + StripSpaces(line, 4))), None)
  {
    var s := State(a, Some(IndentedCode(t)), None);
    if IsBlank(line) {
      BlankLineKeptInCode(line, s);
    } else {
      IndentedRuleChosen(line, s);
      IndentedLineExtendsCode(line, s);
    }
  }

  /** An open indented code block takes a run of such lines. */
  lemma {:induction false} CodeLinesExtendCode(lines: seq<string>, a: seq<Block>, t: string)
    requires AllCodeOrBlank(lines)
    ensures ParseLines(lines, State(a, Some(IndentedCode(t)), None))
            == State(a, Some(IndentedCode(t + Prefixed(CodeTexts(lines), "\n"))), None)
    decreases |lines|
  {
    if lines == [] {
      assert t + [] == t;
    } else {
      var x := StripSpaces(lines[0], 4);
      CodeLineStep(lines[0], a, t);
      FoldStep(lines, State(a, Some(IndentedCode(t)), None), State(a, Some(IndentedCode(t + "\n" + x)), None));
      CodeLinesExtendCode(lines[1..], a, t + "\n" + x);
      PrefixedStep(t, x, CodeTexts(lines[1..]));
    }
  }

  /** Stripped lines are pieces of their lines, so they hold no line break. */
  lemma {:induction false} CodeTextsAreLines(lines: seq<string>)
    requires forall i :: 0 <= i < |lines| ==> OneLine(lines[i])
    ensures forall i :: 0 <= i < |lines| ==> NoneIn(CodeTexts(lines)[i], {'\n'})
    decreases |lines|
  {
    if lines != [] {
      var rest := CodeTexts(lines[1..]);
      assert forall i :: 0 <= i < |lines| - 1 ==> OneLine(lines[1..][i]);
      CodeTextsAreLines(lines[1..]);
      var c := StripSpaces(lines[0], 4);
      SuffixIsOneLine(lines[0], c);
      assert CodeTexts(lines) == [c] + rest;
      ConsNoBreaks(c, rest);
    }
  }

  /** An indented first line followed by blank and indented lines is one
      indented code block: every line less four leading spaces (blank lines
      less up to four), without a blank last line. */
  lemma IndentedCodeDocument(lines: seq<string>)
    requires |lines| >= 1 && forall i :: 0 <= i < |lines| ==> OneLine(lines[i])
    requires IsIndentedCodeLine(lines[0]) && !IsBlank(lines[0])
    requires AllCodeOrBlank(lines[1..])
    ensures Parse(Join(lines, "\n")) == [IndentedCode(Join(InnerLines(CodeTexts(lines)), "\n"))]
  {
    SplitLinesOfJoin(lines);
    var first := StripSpaces(lines[0], 4);
    IndentedRuleChosen(lines[0], Empty);
    IndentedLineOpensCode(lines[0], Empty);
    FoldStep(lines, Empty, State([], Some(IndentedCode(first)), None));
    CodeLinesExtendCode(lines[1..], [], first);
    var text := first + Prefixed(CodeTexts(lines[1..]), "\n");
    CloseIndented(State([], Some(IndentedCode(text)), None));
    JoinCons(first, CodeTexts(lines[1..]), "\n");
    CodeTextsAreLines(lines);
    IndentedCodeTextOfLines(CodeTexts(lines));
  }
}

=== FILE: parser.dfy ===
/** The block-structure recognizer of `src/parser.ts`: one pure transition
    per input line (`ParseLine`), the finalizer of an open block (`Close`),
    and the fold over the lines of a document (`Parse`). */
module Parser {
  import opened Wrappers
  import opened Text
  import opened Blocks
  import opened LineSyntax

  /** Number of blocks a state will yield at this level once closed. */
  function Count(s: State): nat {
    |s.ast| + (if s.open.Some? then 1 else 0)
  }

  // ---------------------------------------------------------------------
  // Closing

  /** The filter applied to the lines of an indented code block on close:
      the element at index `i` (of all the lines `ls`) is dropped when it is
      the first or the last one and is blank. */
  function KeepInner(ls: seq<string>, i: nat): seq<string>
    requires i <= |ls|
    decreases |ls| - i
  {
    if i == |ls| then []
    else
      (if (i == 0 || i == |ls| - 1) && IsBlank(ls[i]) then [] else [ls[i]])
      + KeepInner(ls, i + 1)
  }

  /** Text of a closed indented code block: its lines with a blank first
      and a blank last line dropped. */
  function IndentedCodeText(text: string): string {
    var ls := Split(text, {'\n'});
    Join(KeepInner(ls, 0), "\n")
  }

  /** Text of a closed fenced code block: its lines without the first,
      which is the empty text the fence was opened with. */
  function FencedCodeText(text: string): string {
    Join(Split(text, {'\n'})[1..], "\n")
  }

  /** Finalizes the open block, if any, appending it to `ast`; an open
      quote is finalized with the closed form of its nested state. */
  function Close(s: State): (r: State)
    ensures r.open.None?
    ensures s.open.None? ==> r == s
    ensures s.open.Some? ==> r.child.None? && |r.ast| == |s.ast| + 1
    ensures s.open.Some? ==> r.ast[..|s.ast|] == s.ast && SameKind(r.ast[|s.ast|], s.open.value)
    ensures Count(r) == Count(s)
    ensures WellFormed(s) ==> WellFormed(r)
    decreases s
  {
    if s.open.None? then s
    else
      var b := s.open.value;
      var done :=
        if b.IndentedCode? then IndentedCode(IndentedCodeText(b.text))
        else if b.FencedCode? then FencedCode(b.marker, FencedCodeText(b.text), b.info)
        else if b.BlockQuote? && s.child.Some? then BlockQuote(Close(s.child.value).ast)
        else b;
      State(s.ast + [done], None, None)
  }

  // ---------------------------------------------------------------------
  // The line transition

  /** The innermost state of a chain of nested states. */
  function Innermost(s: State): (r: State)
    ensures r.child.None?
    decreases s
  {
    if s.child.None? then s else Innermost(s.child.value)
  }

  /** `isLaziness`: the innermost open block of a chain of nested states is
      a paragraph. */
  predicate IsLaziness(s: State): (b: bool)
    ensures b <==> Innermost(s).OpenParagraph()
    decreases s
  {
    if s.child.None? then s.OpenParagraph() else IsLaziness(s.child.value)
  }

  /** The nested state of an open quote, or a fresh one (the default value
      of `parseLine`'s state parameter). In a well-formed state it holds
      exactly the open quote's children, and it is well formed itself. */
  function ChildOrEmpty(s: State): (r: State)
    ensures WellFormed(s) ==> WellFormed(r)
    ensures WellFormed(s) && s.OpenQuote() ==> s.open == Some(BlockQuote(r.ast))
    ensures WellFormed(s) && !s.OpenQuote() ==> r == Empty
  {
    if s.child.Some? then s.child.value else Empty
  }

  /** `Close(s)` with `b` as the new open block. */
  function CloseAndOpen(s: State, b: Block): (r: State)
    ensures r.open == Some(b) && r.ast == Close(s).ast
  {
    Close(s).(open := Some(b))
  }

  /** Rule 1, a blank line: kept (less up to four spaces of indentation)
      by an open indented code block, kept verbatim by an open fence, and
      otherwise the end of the open block. */
  function BlankLine(line: string, s: State): (r: State)
    ensures s.ast <= r.ast && Count(r) <= Count(s)
    ensures WellFormed(s) ==> WellFormed(r)
  {
    if s.OpenIndented() then
      s.(open := Some(IndentedCode(s.open.value.text + "\n" + StripSpaces(line, 4))))
    else if s.OpenFenced() then
      var b := s.open.value;
      s.(open := Some(FencedCode(b.marker, b.text + "\n" + line, b.info)))
    else Close(s)
  }

  /** Rule 5, an indented code line: extends the open indented code block
      or starts one, without its first four spaces. */
  function IndentedLine(line: string, s: State): (r: State)
    ensures s.ast <= r.ast && Count(r) <= Count(s) + 1
    ensures WellFormed(s) ==> WellFormed(r)
  {
    var code := StripSpaces(line, 4);
    if s.OpenIndented() then s.(open := Some(IndentedCode(s.open.value.text + "\n" + code)))
    else CloseAndOpen(s, IndentedCode(code))
  }

  /** Rule 10, a line inside an open fence: appended with as much of its
      indentation removed as the opening fence had. */
  function FenceBody(line: string, s: State): (r: State)
    requires s.OpenFenced()
    ensures r.ast == s.ast && Count(r) == Count(s)
    ensures WellFormed(s) ==> WellFormed(r)
  {
    var b := s.open.value;
    var r := s.(open := Some(FencedCode(b.marker, b.text + "\n" + StripSpaces(line, FenceIndent(b.marker)), b.info)));
    assert r.child == s.child;
    r
  }

  /** Rule 5's condition: neither a paragraph nor a fence is open here, and
      no paragraph is open one level down. A paragraph open two or more
      quote levels down does not prevent it. */
  predicate IndentedCodeAllowed(s: State): (b: bool)
    ensures b && IsLaziness(s) ==> s.child.Some? && s.child.value.child.Some?
  {
    !s.OpenParagraph() && !(s.child.Some? && s.child.value.OpenParagraph()) && !s.OpenFenced()
  }

  /** The rules of the line transition, in the order they are tried. */
  datatype LineRule =
    | BlankRule              // 1. blank line
    | SetextRule             // 2. setext underline of an open paragraph
    | ThematicRule           // 3. thematic break
    | AtxRule                // 4. ATX heading
    | IndentedRule           // 5. indented code
    | FenceCloseRule         // 6. fence closing the open fence
    | FenceOpenRule          // 6. fence opening a new one
    | QuoteRule              // 7. block quote marker
    | ContinuationRule       // 8. paragraph continuation
    | LazyRule               // 9. lazy continuation inside the open quote
    | FenceBodyRule          // 10. line inside an open fence
    | NewParagraphRule       // 11. a new paragraph

  /** The first rule whose condition holds for `line` against `s`. Each
      rule's condition holds when it is chosen. */
  function RuleFor(line: string, s: State): (r: LineRule)
    ensures r == BlankRule <==> IsBlank(line)
    ensures r == SetextRule ==> MatchSetext(line).Some? && s.OpenParagraph()
    ensures r == ThematicRule ==> MatchThematicBreak(line).Some?
    ensures r == AtxRule ==> MatchAtx(line).Some?
    ensures r == IndentedRule ==> IsIndentedCodeLine(line) && IndentedCodeAllowed(s)
    ensures r == FenceCloseRule ==>
      MatchFence(line).Some? && s.OpenFenced() && ClosesFence(MatchFence(line).value, s.open.value.marker)
    ensures r == FenceOpenRule ==> MatchFence(line).Some? && !s.OpenFenced()
    ensures r == QuoteRule ==> MatchQuote(line).Some? && !s.OpenCode()
    ensures r == ContinuationRule ==> s.OpenParagraph()
    ensures r == LazyRule ==> s.OpenQuote() && IsLaziness(s)
    ensures r == FenceBodyRule ==> s.OpenFenced()
  {
    if IsBlank(line) then BlankRule
    else if MatchSetext(line).Some? && s.OpenParagraph() then SetextRule
    else if MatchThematicBreak(line).Some? then ThematicRule
    else if MatchAtx(line).Some? then AtxRule
    else if IsIndentedCodeLine(line) && IndentedCodeAllowed(s) then IndentedRule
    else if MatchFence(line).Some? && s.OpenFenced()
      && ClosesFence(MatchFence(line).value, s.open.value.marker) then FenceCloseRule
    else if MatchFence(line).Some? && !s.OpenFenced() then FenceOpenRule
    else if MatchQuote(line).Some? && !s.OpenFenced() && !s.OpenIndented() then QuoteRule
    else if s.OpenParagraph() then ContinuationRule
    else if s.OpenQuote() && IsLaziness(s) then LazyRule
    else if s.OpenFenced() then FenceBodyRule
    else NewParagraphRule
  }

  /** One line of input against the state of one nesting level: the effect
      of the rule `RuleFor` picks. */
  function ParseLine(line: string, s: State): (r: State)
    ensures s.ast <= r.ast
    ensures Count(r) <= Count(s) + 1
    ensures WellFormed(s) ==> WellFormed(r)
    decreases |line|, s
  {
    match RuleFor(line, s)
    case BlankRule => BlankLine(line, s)
    case SetextRule =>
      var level := if MatchSetext(line).value.ch == '-' then 2 else 1;
      s.(open := Some(Heading(level, s.open.value.text)))
    case ThematicRule => CloseAndOpen(s, ThematicBreak)
    case AtxRule =>
      var m := MatchAtx(line).value;
      if s.open.Some? then CloseAndOpen(s, Heading(m.level, HeadingText(m)))
      else s.(open := Some(Heading(m.level, HeadingText(m))))
    case IndentedRule => IndentedLine(line, s)
    case FenceCloseRule => Close(s)
    case FenceOpenRule =>
      var m := MatchFence(line).value;
      CloseAndOpen(s, FencedCode(FenceMarker(m), "", m.info))
    case QuoteRule =>
      // the rest of the line goes to the nested state
      var rest := MatchQuote(line).value.rest;
      if !s.OpenQuote() then
        var nested := ParseLine(rest, Empty);
        State(Close(s).ast, Some(BlockQuote(nested.ast)), Some(nested))
      else
        var nested := ParseLine(rest, ChildOrEmpty(s));
        s.(open := Some(BlockQuote(nested.ast)), child := Some(nested))
    case ContinuationRule =>
      s.(open := Some(Paragraph(s.open.value.text + "\n" + Trim(line))))
    case LazyRule =>
      var nested := ParseLine(line, s.child.value);
      s.(open := Some(BlockQuote(nested.ast)), child := Some(nested))
    case FenceBodyRule => FenceBody(line, s)
    case NewParagraphRule => CloseAndOpen(s, Paragraph(Trim(line)))
  }

  // ---------------------------------------------------------------------
  // The document

  /** `markdown.split(/[\r\n]/)`: every CR and every LF ends a line. */
  function SplitLines(text: string): (lines: seq<string>)
    ensures |lines| >= 1
  {
    Split(text, {'\r', '\n'})
  }

  /** The fold of `ParseLine` over `lines`. */
  function ParseLines(lines: seq<string>, s: State): (r: State)
    ensures s.ast <= r.ast
    ensures Count(r) <= Count(s) + |lines|
    ensures WellFormed(s) ==> WellFormed(r)
    decreases |lines|
  {
    if lines == [] then s else ParseLines(lines[1..], ParseLine(lines[0], s))
  }

  /** The blocks of a document: every line through the state machine from
      the empty state, then one final close. Total; the empty document has
      no blocks, and no document has more blocks than lines. */
  function Parse(text: string): (blocks: seq<Block>)
    ensures text == "" ==> blocks == []
    ensures |blocks| <= |SplitLines(text)|
  {
    var final := Close(ParseLines(SplitLines(text), Empty));
    assert text == "" ==> SplitLines(text) == [""];
    final.ast
  }
}

=== FILE: rules.dfy ===
/** What one line does to the state, rule by rule: which lines each rule
    claims, what it leaves behind, and which earlier rules can pre-empt it. */
module LineRules {
  import opened Wrappers
  import opened Text
  import opened Blocks
  import opened LineSyntax
  import opened Parser

  // ---------------------------------------------------------------------
  // Which recognizers can fire on a line

  /** A line none of the marker recognizers accepts, and which is not
      blank: only the paragraph rules (or an open code block) can take it. */
  predicate PlainLine(line: string) {
    && !IsBlank(line)
    && MatchSetext(line).None?
    && MatchThematicBreak(line).None?
    && MatchAtx(line).None?
    && MatchFence(line).None?
    && MatchQuote(line).None?
  }

  /** A line whose first character after its indentation is `c`, a
      non-whitespace character, is not blank. */
  lemma NotBlankIfMarked(line: string, c: char)
    requires FirstAfterIndent(line, c) && !IsWhitespace(c)
    ensures !IsBlank(line)
  {
    TrimEmptyIffAllWhitespace(line);
    assert line[LeadingRun(line, ' ')] == c;
  }

  /** The character after the indentation decides which recognizers can
      fire: every recognizer needs a character of its own there. */
  lemma FirstCharacterDecides(line: string)
    requires LeadingRun(line, ' ') < |line|
    ensures var c := line[LeadingRun(line, ' ')];
      && (MatchSetext(line).Some? ==> c == '-' || c == '=')
      && (MatchThematicBreak(line).Some? ==> IsBreakChar(c))
      && (MatchAtx(line).Some? ==> c == '#')
      && (MatchFence(line).Some? ==> IsFenceChar(c))
      && (MatchQuote(line).Some? ==> c == '>')
  {
  }

  /** A line that starts, after its indentation, with a character that
      opens no construct is plain. */
  lemma PlainByFirstCharacter(line: string)
    requires LeadingRun(line, ' ') < |line|
    requires var c := line[LeadingRun(line, ' ')];
      !IsWhitespace(c) && c !in {'-', '=', '_', '*', '#', '`', '~', '>'}
    ensures PlainLine(line)
  {
    var c := line[LeadingRun(line, ' ')];
    NotBlankIfMarked(line, c);
    FirstCharacterDecides(line);
  }

  /** Four or more spaces of indentation rule out every marker: each
      pattern allows at most three. */
  lemma DeepIndentHasNoMarker(line: string)
    requires LeadingRun(line, ' ') >= 4
    ensures MatchSetext(line).None? && MatchThematicBreak(line).None? && MatchAtx(line).None?
    ensures MatchFence(line).None? && MatchQuote(line).None?
  {
  }

  /** An underline is no heading, fence or quote line, and not indented
      code; it is never blank. */
  lemma SetextLineExcludes(line: string)
    requires MatchSetext(line).Some?
    ensures !IsBlank(line) && !IsIndentedCodeLine(line)
    ensures MatchAtx(line).None? && MatchFence(line).None? && MatchQuote(line).None?
  {
    NotBlankIfMarked(line, MatchSetext(line).value.ch);
    FirstCharacterDecides(line);
  }

  /** A thematic break is no heading, fence or quote line, and not
      indented code; it is never blank. */
  lemma ThematicLineExcludes(line: string)
    requires MatchThematicBreak(line).Some?
    ensures !IsBlank(line) && !IsIndentedCodeLine(line)
    ensures MatchAtx(line).None? && MatchFence(line).None? && MatchQuote(line).None?
  {
    NotBlankIfMarked(line, MatchThematicBreak(line).value.marks[0].ch);
    FirstCharacterDecides(line);
  }

  /** An ATX line matches no other recognizer and is not indented code. */
  lemma AtxLineExcludes(line: string)
    requires MatchAtx(line).Some?
    ensures !IsBlank(line) && !IsIndentedCodeLine(line)
    ensures MatchSetext(line).None? && MatchThematicBreak(line).None?
    ensures MatchFence(line).None? && MatchQuote(line).None?
  {
    NotBlankIfMarked(line, '#');
    FirstCharacterDecides(line);
  }

  /** A fence line matches no other recognizer and is not indented code. */
  lemma FenceLineExcludes(line: string)
    requires MatchFence(line).Some?
    ensures !IsBlank(line) && !IsIndentedCodeLine(line)
    ensures MatchSetext(line).None? && MatchThematicBreak(line).None?
    ensures MatchAtx(line).None? && MatchQuote(line).None?
  {
    NotBlankIfMarked(line, MatchFence(line).value.ch);
    FirstCharacterDecides(line);
  }

  /** A quote line matches no other recognizer and is not indented code. */
  lemma QuoteLineExcludes(line: string)
    requires MatchQuote(line).Some?
    ensures !IsBlank(line) && !IsIndentedCodeLine(line)
    ensures MatchSetext(line).None? && MatchThematicBreak(line).None?
    ensures MatchAtx(line).None? && MatchFence(line).None?
  {
    NotBlankIfMarked(line, '>');
    FirstCharacterDecides(line);
  }

  // ---------------------------------------------------------------------
  // Rule 1: blank lines

  /** Outside code a blank line closes whatever is open and leaves nothing
      open, so a second blank line changes nothing more: a run of blank
      lines acts as one. */
  lemma {:induction false} BlankRunActsAsOne(b1: string, b2: string, s: State)
    requires IsBlank(b1) && IsBlank(b2) && !s.OpenCode()
    ensures ParseLine(b1, s) == Close(s)
    ensures ParseLine(b1, s).open.None?
    ensures ParseLine(b2, ParseLine(b1, s)) == ParseLine(b1, s)
  {
    var r := Close(s);
    assert ParseLine(b1, s) == r;
    assert !r.OpenCode();
    assert ParseLine(b2, r) == Close(r);
  }

  /** Inside an open code block a blank line is kept: nothing is closed,
      and the block's text grows by a line break and the blank line (less up
      to four leading spaces in indented code, verbatim in a fence). */
  lemma BlankLineKeptInCode(line: string, s: State)
    requires IsBlank(line) && s.OpenCode()
    ensures var r := ParseLine(line, s);
      && r.ast == s.ast && r.child == s.child && r.open.Some?
      && SameKind(r.open.value, s.open.value)
      && r.open.value.text
         == s.open.value.text + "\n" + (if s.OpenIndented() then StripSpaces(line, 4) else line)
  {
  }

  // ---------------------------------------------------------------------
  // Rule 2: setext underlines

  /** An underline turns the open paragraph into a still-open heading with
      the same text, level 2 for `-` and 1 for `=`, and leaves the completed
      blocks alone. */
  lemma SetextUnderlineMakesHeading(line: string, s: State)
    requires MatchSetext(line).Some? && s.OpenParagraph()
    ensures var r := ParseLine(line, s);
      && r.ast == s.ast && r.child == s.child
      && r.open == Some(Heading(if MatchSetext(line).value.ch == '-' then 2 else 1, s.open.value.text))
  {
    SetextLineExcludes(line);
  }

  /** Without an open paragraph an underline never yields a heading at this
      level: it is a thematic break, paragraph text, fence content, or goes
      to an open quote. */
  lemma SetextNeedsParagraph(line: string, s: State)
    requires MatchSetext(line).Some? && !s.OpenParagraph()
    ensures var r := ParseLine(line, s); r.open.Some? && !r.open.value.Heading?
  {
    SetextLineExcludes(line);
    var rule := RuleFor(line, s);
    assert rule in {ThematicRule, LazyRule, FenceBodyRule, NewParagraphRule};
  }

  /** An underline that is not a thematic break, met where no paragraph is
      open at this level, no fence is open and no lazy continuation applies,
      closes the open block and becomes paragraph text. */
  lemma SetextUnderlineBecomesText(line: string, s: State)
    requires WellFormed(s)
    requires MatchSetext(line).Some? && !s.OpenParagraph()
    requires MatchThematicBreak(line).None? && !s.OpenFenced() && !(s.OpenQuote() && IsLaziness(s))
    ensures ParseLine(line, s) == State(Close(s).ast, Some(Paragraph(Trim(line))), None)
  {
    SetextLineExcludes(line);
  }

  // ---------------------------------------------------------------------
  // Rule 3: thematic breaks

  /** A thematic break closes whatever is open (a paragraph included) and
      becomes the open block, unless the line is first taken as the
      underline of an open paragraph. */
  lemma ThematicBreakClosesOpenBlock(line: string, s: State)
    requires MatchThematicBreak(line).Some?
    requires !(MatchSetext(line).Some? && s.OpenParagraph())
    ensures var r := ParseLine(line, s);
      r.ast == Close(s).ast && r.open == Some(ThematicBreak)
  {
    ThematicLineExcludes(line);
  }

  /** A break drawn with `*` or `_` cannot be an underline, so it always
      interrupts an open paragraph, which is completed unchanged. */
  lemma StarOrUnderscoreBreakInterruptsParagraph(line: string, s: State)
    requires MatchThematicBreak(line).Some? && MatchThematicBreak(line).value.marks[0].ch != '-'
    requires s.open.Some? && s.open.value.Paragraph?
    ensures var r := ParseLine(line, s);
      r.ast == s.ast + [s.open.value] && r.open == Some(ThematicBreak)
  {
    FirstCharacterDecides(line);
    ThematicBreakClosesOpenBlock(line, s);
    CloseKeepsLeafBlock(s);
  }

  // ---------------------------------------------------------------------
  // Rule 4: ATX headings

  /** An ATX line closes what is open and opens a heading whose level is
      the length of the `#` run and whose text is the captured text less
      its closing sequence, trimmed. */
  lemma AtxLineOpensHeading(line: string, s: State)
    requires MatchAtx(line).Some?
    ensures var m := MatchAtx(line).value; var r := ParseLine(line, s);
      && r.ast == Close(s).ast
      && r.open == Some(Heading(m.level, Trim(StripClosingSequence(m.content))))
      && line == Rep(' ', m.indent) + (Rep('#', m.level) + (m.content + m.tail))
  {
    var m := MatchAtx(line).value;
    assert line == Rep(' ', m.indent) + (Rep('#', m.level) + (m.content + m.tail)) by {
      MatchAtxRenders(line);
    }
    AtxLineExcludes(line);
    assert RuleFor(line, s) == AtxRule;
  }

  // ---------------------------------------------------------------------
  // Rule 5: indented code

  /** A non-blank line with at least four leading spaces, where rule 5 is
      allowed, extends an open indented code block with exactly the first
      four spaces removed ... */
  lemma IndentedLineExtendsCode(line: string, s: State)
    requires IsIndentedCodeLine(line) && !IsBlank(line) && s.OpenIndented() && WellFormed(s)
    ensures ParseLine(line, s) == s.(open := Some(IndentedCode(s.open.value.text + "\n" + line[4..])))
  {
    IndentedRuleChosen(line, s);
  }

  /** ... and otherwise closes what is open and starts one. */
  lemma IndentedLineOpensCode(line: string, s: State)
    requires IsIndentedCodeLine(line) && !IsBlank(line) && IndentedCodeAllowed(s) && !s.OpenIndented()
    ensures ParseLine(line, s) == CloseAndOpen(s, IndentedCode(line[4..]))
  {
    IndentedRuleChosen(line, s);
  }

  lemma IndentedRuleChosen(line: string, s: State)
    requires IsIndentedCodeLine(line) && !IsBlank(line) && IndentedCodeAllowed(s)
    ensures RuleFor(line, s) == IndentedRule && StripSpaces(line, 4) == line[4..]
  {
    DeepIndentHasNoMarker(line);
  }

  /** Indentation cannot interrupt an open paragraph: the line is appended
      to it, trimmed. */
  lemma IndentedLineContinuesParagraph(line: string, s: State)
    requires LeadingRun(line, ' ') >= 4 && !IsBlank(line) && s.OpenParagraph()
    ensures ParseLine(line, s) == s.(open := Some(Paragraph(s.open.value.text + "\n" + Trim(line))))
  {
    DeepIndentHasNoMarker(line);
  }

  // ---------------------------------------------------------------------
  // Rule 6: fences

  /** With no fence open, a fence line closes what is open and opens an
      empty fenced block carrying the line's marker and info string. */
  lemma FenceLineOpens(line: string, s: State)
    requires MatchFence(line).Some? && !s.OpenFenced()
    ensures var m := MatchFence(line).value; var r := ParseLine(line, s);
      r.ast == Close(s).ast && r.open == Some(FencedCode(FenceMarker(m), "", m.info))
  {
    FenceLineExcludes(line);
  }

  /** The closing test, read on the two markers: a closing line has no info
      string, the same fence character and a run at least as long; the
      indentation of either line does not matter. */
  lemma ClosesFenceMeaning(m: FenceMatch, o: FenceMatch)
    requires ValidFence(m) && ValidFence(o)
    ensures ClosesFence(m, FenceMarker(o)) <==> m.info.None? && m.ch == o.ch && m.run >= o.run
  {
    FenceMarkerRun(m);
    FenceMarkerRun(o);
  }

  /** The closing line ends the fence and is not part of its content. */
  lemma FenceLineCloses(line: string, s: State)
    requires MatchFence(line).Some? && s.OpenFenced()
    requires ClosesFence(MatchFence(line).value, s.open.value.marker)
    ensures ParseLine(line, s) == Close(s)
    ensures var b := s.open.value;
      ParseLine(line, s).ast == s.ast + [FencedCode(b.marker, FencedCodeText(b.text), b.info)]
  {
    FenceLineExcludes(line);
    assert !IndentedCodeAllowed(s);
    assert RuleFor(line, s) == FenceCloseRule;
    CloseFenced(s);
  }

  /** A line that an open fence with this marker takes as content: not a
      thematic break, not an ATX heading (those rules come first) and not a
      closing fence. */
  predicate FenceContent(line: string, marker: string) {
    && MatchThematicBreak(line).None?
    && MatchAtx(line).None?
    && !(MatchFence(line).Some? && ClosesFence(MatchFence(line).value, marker))
  }

  /** What a content line adds to an open fence: a blank line verbatim,
      any other line less up to as many leading spaces as the opening fence
      was indented by. */
  function FenceContentText(line: string, marker: string): string {
    if IsBlank(line) then line else StripSpaces(line, FenceIndent(marker))
  }

  lemma FenceContentLine(line: string, s: State)
    requires s.OpenFenced() && FenceContent(line, s.open.value.marker)
    ensures var b := s.open.value;
      ParseLine(line, s)
      == s.(open := Some(FencedCode(b.marker, b.text + "\n" + FenceContentText(line, b.marker), b.info)))
  {
  }

  /** A thematic break or an ATX heading ends an open fence (its rules come
      before the fence rules). */
  lemma BreakOrHeadingEndsFence(line: string, s: State)
    requires s.OpenFenced()
    requires MatchThematicBreak(line).Some? || MatchAtx(line).Some?
    ensures var r := ParseLine(line, s);
      r.ast == Close(s).ast && r.open.Some? && !r.open.value.FencedCode?
  {
    if MatchThematicBreak(line).Some? {
      ThematicBreakClosesOpenBlock(line, s);
    } else {
      AtxLineOpensHeading(line, s);
    }
  }

  // ---------------------------------------------------------------------
  // Rule 7: block quote markers

  /** A quote line outside code hands the rest of the line (after `>` and
      one optional space) to the nested state, the open quote's when one is
      open and a fresh one otherwise; the quote's children are the nested
      completed blocks. */
  lemma QuoteLineFeedsNested(line: string, s: State)
    requires MatchQuote(line).Some? && !s.OpenCode()
    ensures var rest := MatchQuote(line).value.rest; var r := ParseLine(line, s);
      && r.child == Some(ParseLine(rest, if s.OpenQuote() then ChildOrEmpty(s) else Empty))
      && r.open == Some(BlockQuote(r.child.value.ast))
      && r.ast == (if s.OpenQuote() then s.ast else Close(s).ast)
  {
    QuoteLineExcludes(line);
  }

  /** While an indented code block is open a `>` line is not a quote: it
      ends the code block and starts a paragraph. */
  lemma QuoteLineAfterIndentedCode(line: string, s: State)
    requires MatchQuote(line).Some? && s.OpenIndented()
    ensures var r := ParseLine(line, s);
      r.ast == Close(s).ast && r.open == Some(Paragraph(Trim(line)))
  {
    QuoteLineExcludes(line);
    assert RuleFor(line, s) == NewParagraphRule;
  }

  // ---------------------------------------------------------------------
  // Rules 8, 9 and 11: paragraphs

  /** An open paragraph takes any plain line, trimmed, whatever its
      indentation. */
  lemma PlainLineContinuesParagraph(line: string, s: State)
    requires PlainLine(line) && s.OpenParagraph()
    ensures ParseLine(line, s) == s.(open := Some(Paragraph(s.open.value.text + "\n" + Trim(line))))
  {
  }

  /** With nothing open, a plain line that is not indented code starts a
      paragraph holding the trimmed line. */
  lemma PlainLineStartsParagraph(line: string, s: State)
    requires PlainLine(line) && !IsIndentedCodeLine(line) && s.open.None?
    ensures ParseLine(line, s) == s.(open := Some(Paragraph(Trim(line))))
  {
  }

  /** A line no marker rule takes ends an open heading, thematic break or
      indented code block and starts a paragraph of its trimmed text. */
  lemma NewParagraphAfterLeafBlock(line: string, s: State)
    requires WellFormed(s)
    requires !IsBlank(line) && !IsIndentedCodeLine(line)
    requires MatchThematicBreak(line).None? && MatchAtx(line).None?
    requires MatchFence(line).None? && MatchQuote(line).None?
    requires s.open.None? || s.open.value.Heading? || s.open.value.ThematicBreak? || s.open.value.IndentedCode?
    ensures ParseLine(line, s) == State(Close(s).ast, Some(Paragraph(Trim(line))), None)
  {
  }

  /** An unmarked plain line against an open quote reaches the nested state
      exactly when the innermost open block is a paragraph (lazy
      continuation); otherwise it closes the quote and starts a paragraph. */
  lemma PlainLineAgainstQuote(line: string, s: State)
    requires WellFormed(s) && s.OpenQuote()
    requires PlainLine(line) && !IsIndentedCodeLine(line)
    ensures var r := ParseLine(line, s);
      && (IsLaziness(s) ==>
            r == s.(open := Some(BlockQuote(ParseLine(line, s.child.value).ast)),
                    child := Some(ParseLine(line, s.child.value))))
      && (!IsLaziness(s) ==> r.ast == Close(s).ast && r.open == Some(Paragraph(Trim(line))))
  {
  }

  /** A paragraph open one level down blocks rule 5, so an indented line
      continues it lazily instead of starting code. */
  lemma IndentedLineInQuotedParagraph(line: string, s: State)
    requires WellFormed(s) && s.OpenQuote() && s.child.value.OpenParagraph()
    requires IsIndentedCodeLine(line) && !IsBlank(line)
    ensures var nested := ParseLine(line, s.child.value);
      ParseLine(line, s) == s.(open := Some(BlockQuote(nested.ast)), child := Some(nested))
  {
    DeepIndentHasNoMarker(line);
    assert IsLaziness(s.child.value);
  }

  // ---------------------------------------------------------------------
  // Close

  /** On a well-formed state, closing leaves neither an open block nor a
      nested state. */
  lemma CloseLeavesNothingOpen(s: State)
    requires WellFormed(s)
    ensures Close(s).open.None? && Close(s).child.None?
  {
  }

  /** Closing twice is closing once. */
  lemma CloseIdempotent(s: State)
    ensures Close(Close(s)) == Close(s)
  {
  }

  /** A fenced block is completed with its first line dropped. */
  lemma CloseFenced(s: State)
    requires s.OpenFenced()
    ensures var b := s.open.value;
      Close(s) == State(s.ast + [FencedCode(b.marker, FencedCodeText(b.text), b.info)], None, None)
  {
  }

  /** An indented code block is completed with a blank first and last
      line dropped. */
  lemma CloseIndented(s: State)
    requires s.OpenIndented()
    ensures Close(s) == State(s.ast + [IndentedCode(IndentedCodeText(s.open.value.text))], None, None)
  {
  }

  /** Paragraphs, headings and thematic breaks are completed unchanged. */
  lemma CloseKeepsLeafBlock(s: State)
    requires s.open.Some?
    requires s.open.value.Paragraph? || s.open.value.Heading? || s.open.value.ThematicBreak?
    ensures Close(s) == State(s.ast + [s.open.value], None, None)
  {
  }

  /** An open quote is completed with the closed form of its nested state
      as children, whatever its `children` field held. */
  lemma CloseQuoteClosesNested(s: State)
    requires s.OpenQuote() && s.child.Some?
    ensures Close(s).ast == s.ast + [BlockQuote(Close(s.child.value).ast)]
  {
  }
}

=== FILE: syntax.dfy ===
/** Recognizers for the line shapes the parser tests with regular
    expressions. Each recognizer returns the decomposition of the line the
    expression would capture (or None when it does not match), and each has
    a Render function back to text: `Render(Match(line)) == line` and
    `Match(Render(m)) == Some(m)` for every valid decomposition `m`, so a
    recognizer accepts exactly the language of its expression. */
module LineSyntax {
  import opened Wrappers
  import opened Text
  import opened Blocks

  /** The leading spaces of `line`, made explicit. */
  lemma SplitIndent(line: string)
    ensures line == Rep(' ', LeadingRun(line, ' ')) + line[LeadingRun(line, ' ')..]
  {
    var k := LeadingRun(line, ' ');
    assert line[..k] == Rep(' ', k);
    assert line == line[..k] + line[k..];
  }

  /** A prefix of `n` equal characters is a `Rep`. */
  lemma PrefixIsRep(s: string, c: char, n: nat)
    requires n <= |s|
    requires forall i :: 0 <= i < n ==> s[i] == c
    ensures s == Rep(c, n) + s[n..]
  {
    assert s[..n] == Rep(c, n);
    assert s == s[..n] + s[n..];
  }

  /** The first non-space character of a line (after its indentation). */
  predicate FirstAfterIndent(line: string, c: char) {
    var k := LeadingRun(line, ' ');
    k < |line| && line[k] == c
  }

  // ---------------------------------------------------------------------
  // Setext underline: /^ {0,3}(?<level>-{1,}|={1,}) {0,}$/

  datatype SetextMatch = SetextMatch(indent: nat, ch: char, run: nat, trailing: nat)

  predicate ValidSetext(m: SetextMatch) {
    m.indent <= 3 && (m.ch == '-' || m.ch == '=') && m.run >= 1
  }

  function RenderSetext(m: SetextMatch): string {
    Rep(' ', m.indent) + Rep(m.ch, m.run) + Rep(' ', m.trailing)
  }

  function MatchSetext(line: string): (r: Option<SetextMatch>)
    ensures r.Some? ==> ValidSetext(r.value)
    ensures r.Some? ==> LeadingRun(line, ' ') <= 3 && FirstAfterIndent(line, r.value.ch)
  {
    var k := LeadingRun(line, ' ');
    SplitIndent(line);
    SetextAfterIndent(k, line[k..])
  }

  /** A recognized line is the rendering of its decomposition. */
  lemma MatchSetextRenders(line: string)
    ensures MatchSetext(line).Some? ==> RenderSetext(MatchSetext(line).value) == line
  {
    var k := LeadingRun(line, ' ');
    SplitIndent(line);
    assert MatchSetext(line) == SetextAfterIndent(k, line[k..]);
  }

  /** The underline pattern after the indentation: a run of `-` or of `=`,
      then only spaces. */
  function SetextAfterIndent(k: nat, body: string): (r: Option<SetextMatch>)
    ensures r.Some? ==> ValidSetext(r.value) && r.value.indent == k
    ensures r.Some? ==> RenderSetext(r.value) == Rep(' ', k) + body
    ensures r.Some? ==> body != [] && body[0] == r.value.ch
  {
    if k > 3 || body == [] || (body[0] != '-' && body[0] != '=') then None
    else
      var c := body[0];
      var n := LeadingRun(body, c);
      if LeadingRun(body[n..], ' ') == |body[n..]| then
        SetextBody(body, c, n);
        var m := SetextMatch(k, c, n, |body| - n);
        assert RenderSetext(m) == Rep(' ', k) + (Rep(c, n) + Rep(' ', |body| - n));
        Some(m)
      else None
  }

  /** A run of `c` followed only by spaces. */
  lemma SetextBody(body: string, c: char, n: nat)
    requires n == LeadingRun(body, c)
    requires LeadingRun(body[n..], ' ') == |body[n..]|
    ensures body == Rep(c, n) + Rep(' ', |body| - n)
  {
    var rest := body[n..];
    PrefixIsRep(rest, ' ', |rest|);
    assert rest[|rest|..] == [];
    assert Rep(' ', |rest|) == rest;
    PrefixIsRep(body, c, n);
  }

  lemma SetextRoundTrip(m: SetextMatch)
    requires ValidSetext(m)
    ensures MatchSetext(RenderSetext(m)) == Some(m)
  {
    var body := Rep(m.ch, m.run) + Rep(' ', m.trailing);
    assert RenderSetext(m) == Rep(' ', m.indent) + body;
    MatchSetextOfIndented(m.indent, body);
    SetextAfterIndentOfRun(m);
  }

  /** `MatchSetext` reads the indentation off the front of the line. */
  lemma MatchSetextOfIndented(k: nat, body: string)
    requires body == [] || body[0] != ' '
    ensures MatchSetext(Rep(' ', k) + body) == SetextAfterIndent(k, body)
  {
    LeadingRunOfRep(' ', k, body);
    assert (Rep(' ', k) + body)[k..] == body;
  }

  lemma SetextAfterIndentOfRun(m: SetextMatch)
    requires ValidSetext(m)
    ensures SetextAfterIndent(m.indent, Rep(m.ch, m.run) + Rep(' ', m.trailing)) == Some(m)
  {
    var spaces := Rep(' ', m.trailing);
    var body := Rep(m.ch, m.run) + spaces;
    LeadingRunOfRep(m.ch, m.run, spaces);
    assert body[m.run..] == spaces;
    LeadingRunOfRep(' ', m.trailing, []);
    assert spaces + [] == spaces;
  }

  // ---------------------------------------------------------------------
  // Thematic break: /^ {0,3}([-_*] {0,}){3,}$/

  predicate IsBreakChar(c: char) {
    c == '-' || c == '_' || c == '*'
  }

  /** One repetition of the group `[-_*] {0,}`. */
  datatype Mark = Mark(ch: char, spaces: nat)

  datatype ThematicMatch = ThematicMatch(indent: nat, marks: seq<Mark>)

  predicate ValidMarks(ms: seq<Mark>) {
    forall i :: 0 <= i < |ms| ==> IsBreakChar(ms[i].ch)
  }

  predicate ValidThematic(m: ThematicMatch) {
    m.indent <= 3 && |m.marks| >= 3 && ValidMarks(m.marks)
  }

  function RenderMarks(ms: seq<Mark>): string
    decreases |ms|
  {
    if ms == [] then [] else [ms[0].ch] + (Rep(' ', ms[0].spaces) + RenderMarks(ms[1..]))
  }

  function RenderThematic(m: ThematicMatch): string {
    Rep(' ', m.indent) + RenderMarks(m.marks)
  }

  /** Splits `s` into repetitions of `[-_*] {0,}`, if it is made of them. */
  function ScanMarks(s: string): (r: Option<seq<Mark>>)
    ensures r.Some? ==> ValidMarks(r.value) && RenderMarks(r.value) == s
    decreases |s|
  {
    if s == [] then Some([])
    else if !IsBreakChar(s[0]) then None
    else
      var sp := LeadingRun(s[1..], ' ');
      match ScanMarks(s[1 + sp..])
      case None => None
      case Some(ms) =>
        ScanStep(s, sp, ms);
        Some([Mark(s[0], sp)] + ms)
  }

  lemma ScanStep(s: string, sp: nat, ms: seq<Mark>)
    requires s != [] && IsBreakChar(s[0]) && sp == LeadingRun(s[1..], ' ')
    requires ValidMarks(ms) && RenderMarks(ms) == s[1 + sp..]
    ensures ValidMarks([Mark(s[0], sp)] + ms)
    ensures RenderMarks([Mark(s[0], sp)] + ms) == s
  {
    var ms' := [Mark(s[0], sp)] + ms;
    assert ms'[1..] == ms;
    PrefixIsRep(s[1..], ' ', sp);
    assert s[1..][sp..] == s[1 + sp..];
    assert s == [s[0]] + s[1..];
  }

  function MatchThematicBreak(line: string): (r: Option<ThematicMatch>)
    ensures r.Some? ==> ValidThematic(r.value)
    ensures r.Some? ==> LeadingRun(line, ' ') <= 3 && FirstAfterIndent(line, r.value.marks[0].ch)
  {
    var k := LeadingRun(line, ' ');
    SplitIndent(line);
    ThematicAfterIndent(k, line[k..])
  }

  /** A recognized line is the rendering of its decomposition. */
  lemma MatchThematicBreakRenders(line: string)
    ensures MatchThematicBreak(line).Some? ==> RenderThematic(MatchThematicBreak(line).value) == line
  {
    var k := LeadingRun(line, ' ');
    SplitIndent(line);
    assert MatchThematicBreak(line) == ThematicAfterIndent(k, line[k..]);
  }

  /** The break pattern after the indentation: at least three marks. */
  function ThematicAfterIndent(k: nat, body: string): (r: Option<ThematicMatch>)
    ensures r.Some? ==> ValidThematic(r.value) && r.value.indent == k
    ensures r.Some? ==> RenderThematic(r.value) == Rep(' ', k) + body
    ensures r.Some? ==> body != [] && body[0] == r.value.marks[0].ch
  {
    if k > 3 then None
    else
      match ScanMarks(body)
      case None => None
      case Some(ms) =>
        if |ms| >= 3 then
          assert RenderMarks(ms)[0] == ms[0].ch;
          Some(ThematicMatch(k, ms))
        else None
  }

  /** One step of the scanner: a break character, its spaces, and the marks
      after them. */
  lemma ScanMarksStep(c: char, sp: nat, rest: string)
    requires IsBreakChar(c)
    requires rest == [] || rest[0] != ' '
    ensures ScanMarks([c] + (Rep(' ', sp) + rest))
            == (match ScanMarks(rest)
                case None => None
                case Some(ms) => Some([Mark(c, sp)] + ms))
  {
    var s := [c] + (Rep(' ', sp) + rest);
    assert s[1..] == Rep(' ', sp) + rest;
    LeadingRunOfRep(' ', sp, rest);
    assert s[1 + sp..] == rest;
  }

  lemma {:induction false} ScanRenderMarks(ms: seq<Mark>)
    requires ValidMarks(ms)
    ensures ScanMarks(RenderMarks(ms)) == Some(ms)
    decreases |ms|
  {
    if ms != [] {
      var rest := RenderMarks(ms[1..]);
      assert ValidMarks(ms[1..]) by {
        forall i | 0 <= i < |ms[1..]| ensures IsBreakChar(ms[1..][i].ch) {
          assert ms[1..][i] == ms[i + 1];
        }
      }
      ScanRenderMarks(ms[1..]);
      assert rest == [] || rest[0] == ms[1].ch;
      ScanMarksStep(ms[0].ch, ms[0].spaces, rest);
      assert ms == [Mark(ms[0].ch, ms[0].spaces)] + ms[1..];
    }
  }

  lemma ThematicRoundTrip(m: ThematicMatch)
    requires ValidThematic(m)
    ensures MatchThematicBreak(RenderThematic(m)) == Some(m)
  {
    var marks := RenderMarks(m.marks);
    assert marks[0] == m.marks[0].ch;
    MatchThematicOfIndented(m.indent, marks);
    ScanRenderMarks(m.marks);
  }

  /** `MatchThematicBreak` reads the indentation off the front of the line. */
  lemma MatchThematicOfIndented(k: nat, body: string)
    requires body == [] || body[0] != ' '
    ensures MatchThematicBreak(Rep(' ', k) + body) == ThematicAfterIndent(k, body)
  {
    LeadingRunOfRep(' ', k, body);
    assert (Rep(' ', k) + body)[k..] == body;
  }

  // ---------------------------------------------------------------------
  // ATX heading: /^ {0,3}(?<atx>#{1,6})(?<text> .*|$)/  (no end anchor)

  /** `content` is the captured text group; `tail` is whatever follows it,
      which is empty or begins with a line terminator. */
  datatype AtxMatch = AtxMatch(indent: nat, level: HeadingLevel, content: string, tail: string)

  predicate ValidAtx(m: AtxMatch) {
    && m.indent <= 3
    && NoLineTerminator(m.content)
    && ((m.content == [] && m.tail == [])
        || (m.content != [] && m.content[0] == ' ' && (m.tail == [] || IsLineTerminator(m.tail[0]))))
  }

  function RenderAtx(m: AtxMatch): string {
    Rep(' ', m.indent) + (Rep('#', m.level) + (m.content + m.tail))
  }

  function MatchAtx(line: string): (r: Option<AtxMatch>)
    ensures r.Some? ==> ValidAtx(r.value)
    ensures r.Some? ==> LeadingRun(line, ' ') <= 3 && FirstAfterIndent(line, '#')
  {
    var k := LeadingRun(line, ' ');
    SplitIndent(line);
    AtxAfterIndent(k, line[k..])
  }

  /** A recognized line is the rendering of its decomposition. */
  lemma MatchAtxRenders(line: string)
    ensures MatchAtx(line).Some? ==> RenderAtx(MatchAtx(line).value) == line
  {
    var k := LeadingRun(line, ' ');
    SplitIndent(line);
    assert MatchAtx(line) == AtxAfterIndent(k, line[k..]);
  }

  /** The heading pattern after the indentation: one to six `#`, then the
      end of the line or a space. */
  function AtxAfterIndent(k: nat, body: string): (r: Option<AtxMatch>)
    ensures r.Some? ==> ValidAtx(r.value) && r.value.indent == k
    ensures r.Some? ==> RenderAtx(r.value) == Rep(' ', k) + body
    ensures r.Some? ==> body != [] && body[0] == '#'
  {
    if k > 3 then None
    else
      var n := LeadingRun(body, '#');
      if n < 1 || n > 6 then None
      else
        var rest := body[n..];
        if rest != [] && rest[0] != ' ' then None
        else
          HashesThen(body, n);
          AtxValid(k, n, rest);
          var m := AtxAfterHashes(k, n, rest);
          assert m.content + m.tail == rest;
          Some(m)
  }

  /** The text group: empty at the end of the line, otherwise everything up
      to the first line terminator. */
  function AtxAfterHashes(k: nat, n: HeadingLevel, rest: string): AtxMatch {
    var t := LineLength(rest);
    AtxMatch(k, n, rest[..t], rest[t..])
  }

  lemma AtxValid(k: nat, n: HeadingLevel, rest: string)
    requires k <= 3
    requires rest == [] || rest[0] == ' '
    ensures ValidAtx(AtxAfterHashes(k, n, rest))
  {
    var t := LineLength(rest);
    if rest != [] {
      assert !IsLineTerminator(rest[0]);
      assert t >= 1;
      assert rest[..t][0] == ' ';
      assert rest[t..] == [] || rest[t..][0] == rest[t];
    } else {
      assert t == 0;
    }
  }

  lemma HashesThen(s: string, n: nat)
    requires n == LeadingRun(s, '#')
    ensures Rep('#', n) + s[n..] == s
  {
    PrefixIsRep(s, '#', n);
  }

  /** A terminator-free prefix followed by a terminator (or nothing) is
      exactly what `.*` consumes. */
  lemma {:induction false} LineLengthOf(x: string, t: string)
    requires NoLineTerminator(x)
    requires t == [] || IsLineTerminator(t[0])
    ensures LineLength(x + t) == |x|
    decreases |x|
  {
    if x != [] {
      assert (x + t)[1..] == x[1..] + t;
      LineLengthOf(x[1..], t);
    } else {
      assert x + t == t;
    }
  }

  lemma AtxRoundTrip(m: AtxMatch)
    requires ValidAtx(m)
    ensures MatchAtx(RenderAtx(m)) == Some(m)
  {
    var rest := m.content + m.tail;
    var body := Rep('#', m.level) + rest;
    assert body[0] == '#';
    MatchAtxOfIndented(m.indent, body);
    AtxAfterIndentOfHashes(m.indent, m.level, rest);
    AtxTextGroup(m);
  }

  /** `MatchAtx` reads the indentation off the front of the line. */
  lemma MatchAtxOfIndented(k: nat, body: string)
    requires body == [] || body[0] != ' '
    ensures MatchAtx(Rep(' ', k) + body) == AtxAfterIndent(k, body)
  {
    LeadingRunOfRep(' ', k, body);
    assert (Rep(' ', k) + body)[k..] == body;
  }

  /** `AtxAfterIndent` on a run of hashes followed by the rest of the line. */
  lemma AtxAfterIndentOfHashes(k: nat, n: HeadingLevel, rest: string)
    requires k <= 3
    requires rest == [] || rest[0] == ' '
    ensures AtxAfterIndent(k, Rep('#', n) + rest) == Some(AtxAfterHashes(k, n, rest))
  {
    LeadingRunOfRep('#', n, rest);
    assert (Rep('#', n) + rest)[n..] == rest;
  }

  lemma AtxTextGroup(m: AtxMatch)
    requires ValidAtx(m)
    ensures AtxAfterHashes(m.indent, m.level, m.content + m.tail) == m
  {
    var rest := m.content + m.tail;
    if m.content != [] {
      LineLengthOf(m.content, m.tail);
      assert rest[..|m.content|] == m.content;
    }
  }

  /** The heading text: the captured group with a closing sequence removed,
      then trimmed. */
  function HeadingText(m: AtxMatch): (r: string)
    ensures |r| <= |m.content|
    ensures r == [] || (!IsWhitespace(r[0]) && !IsWhitespace(r[|r| - 1]))
  {
    Trim(StripClosingSequence(m.content))
  }

  /** `u` is a whole closing sequence `#{1,} {0,}`. */
  predicate IsClosingRun(u: string) {
    var b := LeadingRun(u, '#');
    b >= 1 && LeadingRun(u[b..], ' ') == |u| - b
  }

  /** Length of the longest suffix of `s` made only of `c`. */
  function TrailingRun(s: string, c: char): (n: nat)
    ensures n <= |s|
    ensures forall i :: |s| - n <= i < |s| ==> s[i] == c
    ensures n == |s| || s[|s| - n - 1] != c
  {
    if |s| > 0 && s[|s| - 1] == c then 1 + TrailingRun(s[..|s| - 1], c) else 0
  }

  /** `s` without its trailing run of `c`. */
  function DropTrailing(s: string, c: char): string {
    s[..|s| - TrailingRun(s, c)]
  }

  lemma {:induction false} DropTrailingOfRep(p: string, c: char, n: nat)
    requires p == [] || p[|p| - 1] != c
    ensures DropTrailing(p + Rep(c, n), c) == p
    decreases n
  {
    if n > 0 {
      assert (p + Rep(c, n))[..|p + Rep(c, n)| - 1] == p + Rep(c, n - 1);
      DropTrailingOfRep(p, c, n - 1);
    } else {
      assert p + Rep(c, n) == p;
    }
  }

  /** `t.replace(/ #{1,} {0,}$/, "")`: removes a final closing sequence
      together with the space in front of it, if `t` ends with one. */
  function StripClosingSequence(t: string): (r: string)
    ensures r != t ==> |r| < |t| && r == t[..|r|] && t[|r|] == ' ' && IsClosingRun(t[|r| + 1..])
  {
    var u := DropTrailing(t, ' ');
    var v := DropTrailing(u, '#');
    if |v| < |u| && |v| >= 1 && v[|v| - 1] == ' ' then
      StripClosingFound(t);
      v[..|v| - 1]
    else t
  }

  lemma StripClosingFound(t: string)
    requires DropTrailing(DropTrailing(t, ' '), '#') != []
    requires |DropTrailing(DropTrailing(t, ' '), '#')| < |DropTrailing(t, ' ')|
    requires var v := DropTrailing(DropTrailing(t, ' '), '#'); v[|v| - 1] == ' '
    ensures var v := DropTrailing(DropTrailing(t, ' '), '#');
      t[..|v| - 1] == v[..|v| - 1] && t[|v| - 1] == ' ' && IsClosingRun(t[|v|..])
  {
    var u := DropTrailing(t, ' ');
    var v := DropTrailing(u, '#');
    var a := |t| - |u|;
    var b := |u| - |v|;
    var w := t[|v|..];
    assert w == u[|v|..] + t[|u|..];
    PrefixIsRep(u[|v|..], '#', b);
    PrefixIsRep(t[|u|..], ' ', a);
    assert u[|v|..] + [] == u[|v|..];
    assert t[|u|..] + [] == t[|u|..];
    LeadingRunOfRep('#', b, t[|u|..]);
    assert w[b..] == t[|u|..];
    LeadingRunOfRep(' ', a, []);
  }

  /** A closing sequence after a space is always removed, so the
      characterisation above is complete: Strip changes `t` exactly when `t`
      ends with one. */
  lemma StripClosingWhenPresent(t: string, i: nat)
    requires i < |t| && t[i] == ' ' && IsClosingRun(t[i + 1..])
    ensures StripClosingSequence(t) == t[..i]
  {
    StripClosingParts(t, i);
    var u := DropTrailing(t, ' ');
    var v := DropTrailing(u, '#');
    assert v == t[..i + 1] && |v| < |u|;
    assert v[|v| - 1] == ' ';
    assert v[..|v| - 1] == t[..i];
  }

  /** The two trailing runs `StripClosingSequence` drops, when `t` ends in a
      space and a closing run: the spaces, then the hashes. */
  lemma StripClosingParts(t: string, i: nat)
    requires i < |t| && t[i] == ' ' && IsClosingRun(t[i + 1..])
    ensures var u := DropTrailing(t, ' ');
      i + 1 < |u| && DropTrailing(u, '#') == t[..i + 1]
  {
    var pre, w := t[..i + 1], t[i + 1..];
    var b := LeadingRun(w, '#');
    var hashes, spaces := Rep('#', b), Rep(' ', |w| - b);
    assert t == pre + hashes + spaces by {
      ClosingRunShape(w);
      assert t == pre + w;
    }
    DropClosingRun(pre, b, |w| - b);
  }

  /** Dropping trailing spaces, then trailing hashes, from a text that ends
      in a space, some hashes and some spaces leaves the text up to that
      space. */
  lemma DropClosingRun(pre: string, b: nat, a: nat)
    requires pre != [] && pre[|pre| - 1] == ' ' && b >= 1
    ensures DropTrailing(pre + Rep('#', b) + Rep(' ', a), ' ') == pre + Rep('#', b)
    ensures DropTrailing(pre + Rep('#', b), '#') == pre
  {
    var p := pre + Rep('#', b);
    assert p[|p| - 1] == '#';
    DropTrailingOfRep(p, ' ', a);
    DropTrailingOfRep(pre, '#', b);
  }

  /** A closing run is some hashes followed by some spaces. */
  lemma ClosingRunShape(w: string)
    requires IsClosingRun(w)
    ensures w == Rep('#', LeadingRun(w, '#')) + Rep(' ', |w| - LeadingRun(w, '#'))
  {
    var b := LeadingRun(w, '#');
    PrefixIsRep(w, '#', b);
    PrefixIsRep(w[b..], ' ', |w| - b);
    assert w[b..][|w| - b..] == [];
    assert w[b..] == Rep(' ', |w| - b);
  }

  // ---------------------------------------------------------------------
  // Indented code line: /^ {4,}.+/  (no end anchor)

  predicate IsIndentedCodeLine(line: string) {
    |line| >= 5 && LeadingRun(line, ' ') >= 4 && !IsLineTerminator(line[4])
  }

  /** The pattern's backtracking reading: some run of at least four spaces
      is followed by a character `.` accepts. */
  lemma IndentedCodeLineMeaning(line: string)
    ensures IsIndentedCodeLine(line) <==>
      exists k :: 4 <= k < |line| && LeadingRun(line, ' ') >= k && !IsLineTerminator(line[k])
  {
    if exists k :: 4 <= k < |line| && LeadingRun(line, ' ') >= k && !IsLineTerminator(line[k]) {
      var k :| 4 <= k < |line| && LeadingRun(line, ' ') >= k && !IsLineTerminator(line[k]);
      if k > 4 {
        assert line[4] == ' ';
      }
    }
  }

  // ---------------------------------------------------------------------
  // Fence: /^(?<marker> {0,3}(?:`{3,}|~{3,})) {0,}(?<info>.+)?$/

  predicate IsFenceChar(c: char) {
    c == '`' || c == '~'
  }

  /** `gap` spaces separate the marker from the optional info string. */
  datatype FenceMatch = FenceMatch(indent: nat, ch: char, run: nat, gap: nat, info: Option<string>)

  predicate ValidFence(m: FenceMatch) {
    && m.indent <= 3
    && IsFenceChar(m.ch)
    && m.run >= 3
    && (m.info.Some? ==>
          && m.info.value != []
          && m.info.value[0] != ' '
          && NoLineTerminator(m.info.value)
          && (m.gap == 0 ==> m.info.value[0] != m.ch))
  }

  /** The captured `marker` group: indentation and the fence run. */
  function FenceMarker(m: FenceMatch): string {
    Rep(' ', m.indent) + Rep(m.ch, m.run)
  }

  function RenderFence(m: FenceMatch): string {
    Rep(' ', m.indent) + (Rep(m.ch, m.run) + (Rep(' ', m.gap) + m.info.GetOr([])))
  }

  function MatchFence(line: string): (r: Option<FenceMatch>)
    ensures r.Some? ==> ValidFence(r.value)
    ensures r.Some? ==> LeadingRun(line, ' ') <= 3 && FirstAfterIndent(line, r.value.ch)
  {
    var k := LeadingRun(line, ' ');
    SplitIndent(line);
    FenceAfterIndent(k, line[k..])
  }

  /** A recognized line is the rendering of its decomposition. */
  lemma MatchFenceRenders(line: string)
    ensures MatchFence(line).Some? ==> RenderFence(MatchFence(line).value) == line
  {
    var k := LeadingRun(line, ' ');
    SplitIndent(line);
    assert MatchFence(line) == FenceAfterIndent(k, line[k..]);
  }

  /** The fence pattern after the indentation: `body` starts with a run of
      at least three of one fence character, and the rest of it holds no
      line terminator. */
  function FenceAfterIndent(k: nat, body: string): (r: Option<FenceMatch>)
    ensures r.Some? ==> ValidFence(r.value) && r.value.indent == k
    ensures r.Some? ==> RenderFence(r.value) == Rep(' ', k) + body
    ensures r.Some? ==> body != [] && body[0] == r.value.ch
  {
    if k > 3 || body == [] || !IsFenceChar(body[0]) then None
    else
      var c := body[0];
      var n := LeadingRun(body, c);
      if n < 3 || !NoLineTerminator(body[n..]) then None
      else
        PrefixIsRep(body, c, n);
        FenceAfterRunValid(k, c, n, body[n..]);
        FenceAfterRunRender(k, c, n, body[n..]);
        Some(FenceAfterRun(k, c, n, body[n..]))
  }

  /** Greedy spaces, then the info group if anything is left. */
  function FenceAfterRun(k: nat, c: char, n: nat, after: string): FenceMatch {
    var g := LeadingRun(after, ' ');
    FenceMatch(k, c, n, g, if after[g..] == [] then None else Some(after[g..]))
  }

  lemma FenceAfterRunValid(k: nat, c: char, n: nat, after: string)
    requires k <= 3 && IsFenceChar(c) && n >= 3 && NoLineTerminator(after)
    requires after == [] || after[0] != c
    ensures ValidFence(FenceAfterRun(k, c, n, after))
  {
    var g := LeadingRun(after, ' ');
    var rest := after[g..];
    if rest != [] {
      assert rest[0] == after[g];
    }
  }

  lemma FenceAfterRunRender(k: nat, c: char, n: nat, after: string)
    ensures RenderFence(FenceAfterRun(k, c, n, after)) == Rep(' ', k) + (Rep(c, n) + after)
  {
    var g := LeadingRun(after, ' ');
    PrefixIsRep(after, ' ', g);
    assert FenceAfterRun(k, c, n, after).info.GetOr([]) == after[g..];
  }

  lemma FenceRoundTrip(m: FenceMatch)
    requires ValidFence(m)
    ensures MatchFence(RenderFence(m)) == Some(m)
  {
    var info := m.info.GetOr([]);
    var after := Rep(' ', m.gap) + info;
    var body := Rep(m.ch, m.run) + after;
    assert RenderFence(m) == Rep(' ', m.indent) + body;
    MatchFenceOfIndented(m.indent, body);
    assert NoLineTerminator(after) by { FenceInfoLine(m.gap, info); }
    assert after == [] || after[0] != m.ch;
    FenceAfterIndentOfRun(m.indent, m.ch, m.run, after);
    FenceInfoGroup(m);
  }

  /** `MatchFence` reads the indentation off the front of the line. */
  lemma MatchFenceOfIndented(k: nat, body: string)
    requires body == [] || body[0] != ' '
    ensures MatchFence(Rep(' ', k) + body) == FenceAfterIndent(k, body)
  {
    var line := Rep(' ', k) + body;
    LeadingRunOfRep(' ', k, body);
    assert line[k..] == body;
  }

  /** `FenceAfterIndent` on a fence run followed by the rest of the line. */
  lemma FenceAfterIndentOfRun(k: nat, c: char, n: nat, after: string)
    requires k <= 3 && IsFenceChar(c) && n >= 3
    requires after == [] || after[0] != c
    requires NoLineTerminator(after)
    ensures FenceAfterIndent(k, Rep(c, n) + after) == Some(FenceAfterRun(k, c, n, after))
  {
    var body := Rep(c, n) + after;
    LeadingRunOfRep(c, n, after);
    assert body[n..] == after;
  }

  lemma FenceInfoGroup(m: FenceMatch)
    requires ValidFence(m)
    ensures FenceAfterRun(m.indent, m.ch, m.run, Rep(' ', m.gap) + m.info.GetOr([])) == m
  {
    var info := m.info.GetOr([]);
    LeadingRunOfRep(' ', m.gap, info);
    assert (Rep(' ', m.gap) + info)[m.gap..] == info;
  }

  lemma FenceInfoLine(gap: nat, info: string)
    requires NoLineTerminator(info)
    ensures NoLineTerminator(Rep(' ', gap) + info)
  {
    var after := Rep(' ', gap) + info;
    forall i | 0 <= i < |after| ensures !IsLineTerminator(after[i]) {
      if i >= gap { assert after[i] == info[i - gap]; }
    }
  }

  /** The part of a fence marker after up to three spaces: the fence run. */
  lemma FenceMarkerRun(m: FenceMatch)
    requires ValidFence(m)
    ensures StripSpaces(FenceMarker(m), 3) == Rep(m.ch, m.run)
  {
    LeadingRunOfRep(' ', m.indent, Rep(m.ch, m.run));
    assert FenceMarker(m)[m.indent..] == Rep(m.ch, m.run);
  }

  /** The closing test of an open fence whose marker is `openMarker`: no
      info string, the same fence character after indentation, and a run at
      least as long. Mirrors `endMarker[0] === startMarker[0]`, which fails
      when the opening marker has nothing after its indentation. */
  function ClosesFence(m: FenceMatch, openMarker: string): (b: bool)
    requires ValidFence(m)
    ensures b <==> (m.info.None? &&
      var t := StripSpaces(openMarker, 3); 0 < |t| <= m.run && t[0] == m.ch)
  {
    FenceMarkerRun(m);
    var endMarker := StripSpaces(FenceMarker(m), 3);
    var startMarker := StripSpaces(openMarker, 3);
    m.info.None? && |startMarker| > 0 && endMarker[0] == startMarker[0]
    && |endMarker| >= |startMarker|
  }

  /** The indentation of an opening fence, `marker.match(/^( {1,3})/)`:
      the leading spaces, capped at three. */
  function FenceIndent(marker: string): (k: nat)
    ensures k <= 3 && k <= LeadingRun(marker, ' ')
    ensures k == 3 || k == LeadingRun(marker, ' ')
  {
    Min(LeadingRun(marker, ' '), 3)
  }

  // ---------------------------------------------------------------------
  // Block quote marker: /^ {0,3}> {0,1}(?<text>.*)$/

  /** `space` records whether the optional space after `>` was taken. */
  datatype QuoteMatch = QuoteMatch(indent: nat, space: bool, rest: string)

  predicate ValidQuote(m: QuoteMatch) {
    && m.indent <= 3
    && NoLineTerminator(m.rest)
    && (!m.space ==> m.rest == [] || m.rest[0] != ' ')
  }

  function RenderQuote(m: QuoteMatch): string {
    Rep(' ', m.indent) + (">" + ((if m.space then " " else "") + m.rest))
  }

  function MatchQuote(line: string): (r: Option<QuoteMatch>)
    ensures r.Some? ==> ValidQuote(r.value)
    ensures r.Some? ==> LeadingRun(line, ' ') <= 3 && FirstAfterIndent(line, '>')
    ensures r.Some? ==> |r.value.rest| < |line|
  {
    var k := LeadingRun(line, ' ');
    SplitIndent(line);
    QuoteAfterIndent(k, line[k..])
  }

  /** A recognized line is the rendering of its decomposition. */
  lemma MatchQuoteRenders(line: string)
    ensures MatchQuote(line).Some? ==> RenderQuote(MatchQuote(line).value) == line
  {
    var k := LeadingRun(line, ' ');
    SplitIndent(line);
    assert MatchQuote(line) == QuoteAfterIndent(k, line[k..]);
  }

  /** The quote pattern after the indentation: `>`, then a remainder free
      of line terminators. */
  function QuoteAfterIndent(k: nat, body: string): (r: Option<QuoteMatch>)
    ensures r.Some? ==> ValidQuote(r.value) && r.value.indent == k
    ensures r.Some? ==> RenderQuote(r.value) == Rep(' ', k) + body
    ensures r.Some? ==> body != [] && body[0] == '>' && |r.value.rest| < |body|
  {
    if k > 3 || body == [] || body[0] != '>' then None
    else
      var after := body[1..];
      if !NoLineTerminator(after) then None
      else
        assert body == ">" + after;
        QuoteAfterMarkerParts(k, after);
        Some(QuoteAfterMarker(k, after))
  }

  /** How the optional space is taken: greedily. */
  function QuoteAfterMarker(k: nat, after: string): QuoteMatch {
    if after != [] && after[0] == ' ' then QuoteMatch(k, true, after[1..])
    else QuoteMatch(k, false, after)
  }

  lemma QuoteAfterMarkerParts(k: nat, after: string)
    requires k <= 3 && NoLineTerminator(after)
    ensures ValidQuote(QuoteAfterMarker(k, after))
    ensures RenderQuote(QuoteAfterMarker(k, after)) == Rep(' ', k) + (">" + after)
    ensures |QuoteAfterMarker(k, after).rest| <= |after|
  {
    if after != [] && after[0] == ' ' {
      QuoteAfterSpace(after);
    } else {
      assert [] + after == after;
    }
  }

  lemma QuoteAfterSpace(after: string)
    requires NoLineTerminator(after) && after != [] && after[0] == ' '
    ensures NoLineTerminator(after[1..]) && " " + after[1..] == after
  {
  }

  lemma QuoteRoundTrip(m: QuoteMatch)
    requires ValidQuote(m)
    ensures MatchQuote(RenderQuote(m)) == Some(m)
  {
    var sp: string := if m.space then " " else "";
    var after := sp + m.rest;
    var body := ">" + after;
    assert RenderQuote(m) == Rep(' ', m.indent) + body;
    MatchQuoteOfIndented(m.indent, body);
    assert NoLineTerminator(after);
    QuoteAfterIndentOfMarker(m.indent, after);
    if m.space {
      assert after[1..] == m.rest;
    } else {
      assert after == m.rest;
    }
  }

  /** `MatchQuote` reads the indentation off the front of the line. */
  lemma MatchQuoteOfIndented(k: nat, body: string)
    requires body == [] || body[0] != ' '
    ensures MatchQuote(Rep(' ', k) + body) == QuoteAfterIndent(k, body)
  {
    LeadingRunOfRep(' ', k, body);
    assert (Rep(' ', k) + body)[k..] == body;
  }

  /** `QuoteAfterIndent` on `>` followed by the rest of the line. */
  lemma QuoteAfterIndentOfMarker(k: nat, after: string)
    requires k <= 3 && NoLineTerminator(after)
    ensures QuoteAfterIndent(k, ">" + after) == Some(QuoteAfterMarker(k, after))
  {
    assert (">" + after)[1..] == after;
  }
}

=== FILE: syntax_facts.dfy ===
/** Independent readings of the recognizers and of the code-block text
    finalizers, and the facts that connect them. */
module SyntaxFacts {
  import opened Wrappers
  import opened Text
  import opened LineSyntax
  import opened Parser

  // ---------------------------------------------------------------------
  // Thematic breaks, read character by character

  /** Number of break characters (`-`, `_`, `*`) in `s`. */
  function BreakCount(s: string): nat
    decreases |s|
  {
    if s == [] then 0 else (if IsBreakChar(s[0]) then 1 else 0) + BreakCount(s[1..])
  }

  /** Every character of `s` is a break character or a space. */
  predicate BreakCharsAndSpaces(s: string) {
    forall i :: 0 <= i < |s| ==> IsBreakChar(s[i]) || s[i] == ' '
  }

  /** Spaces in front do not count. */
  lemma {:induction false} BreakCountSkipsSpaces(s: string, n: nat)
    requires n <= |s| && forall i :: 0 <= i < n ==> s[i] == ' '
    ensures BreakCount(s) == BreakCount(s[n..])
    decreases n
  {
    if n > 0 {
      assert s[1..][n - 1..] == s[n..];
      BreakCountSkipsSpaces(s[1..], n - 1);
    }
  }

  /** A break character and spaces in front change nothing. */
  lemma BreakCharsAndSpacesAfterMark(s: string, sp: nat)
    requires 1 + sp <= |s| && IsBreakChar(s[0])
    requires forall i :: 1 <= i < 1 + sp ==> s[i] == ' '
    ensures BreakCharsAndSpaces(s) <==> BreakCharsAndSpaces(s[1 + sp..])
  {
    var rest := s[1 + sp..];
    if BreakCharsAndSpaces(rest) {
      forall i | 0 <= i < |s| ensures IsBreakChar(s[i]) || s[i] == ' ' {
        if 1 + sp <= i {
          assert s[i] == rest[i - 1 - sp];
        }
      }
    }
    if BreakCharsAndSpaces(s) {
      forall j | 0 <= j < |rest| ensures IsBreakChar(rest[j]) || rest[j] == ' ' {
        assert rest[j] == s[1 + sp + j];
      }
    }
  }

  /** The mark scanner, on text that does not start with a space, succeeds
      exactly on break characters and spaces, with one mark per break
      character. */
  lemma {:induction false} ScanMarksMeaning(s: string)
    requires s == [] || s[0] != ' '
    ensures ScanMarks(s).Some? <==> BreakCharsAndSpaces(s)
    ensures ScanMarks(s).Some? ==> |ScanMarks(s).value| == BreakCount(s)
    decreases |s|
  {
    if s != [] && IsBreakChar(s[0]) {
      var sp := LeadingRun(s[1..], ' ');
      var rest := s[1 + sp..];
      assert s[1..][sp..] == rest;
      ScanMarksMeaning(rest);
      BreakCountSkipsSpaces(s[1..], sp);
      assert forall i :: 1 <= i < 1 + sp ==> s[i] == s[1..][i - 1];
      BreakCharsAndSpacesAfterMark(s, sp);
    }
  }

  /** `/^ {0,3}([-_*] *){3,}$/`: at most three spaces of indentation, then
      only break characters and spaces, at least three of them break
      characters (of any mix). */
  lemma ThematicBreakMeaning(line: string)
    ensures var k := LeadingRun(line, ' ');
      MatchThematicBreak(line).Some?
      <==> k <= 3 && BreakCharsAndSpaces(line[k..]) && BreakCount(line[k..]) >= 3
  {
    var k := LeadingRun(line, ' ');
    ScanMarksMeaning(line[k..]);
  }

  // ---------------------------------------------------------------------
  // Indented code text

  /** The inner lines of `ls`: a blank first line and a blank last line
      are left out. */
  function InnerLines(ls: seq<string>): seq<string> {
    if |ls| == 0 then []
    else if |ls| == 1 then (if IsBlank(ls[0]) then [] else ls)
    else ls[(if IsBlank(ls[0]) then 1 else 0)..(if IsBlank(ls[|ls| - 1]) then |ls| - 1 else |ls|)]
  }

  /** What the filter keeps of the last line. */
  function LastKept(ls: seq<string>): seq<string>
    requires |ls| >= 1
  {
    if IsBlank(ls[|ls| - 1]) then [] else [ls[|ls| - 1]]
  }

  /** Past the first line, the filter keeps every line but possibly the
      last. */
  lemma {:induction false} KeepInnerTail(ls: seq<string>, i: nat)
    requires 1 <= i < |ls|
    ensures KeepInner(ls, i) == ls[i..|ls| - 1] + LastKept(ls)
    decreases |ls| - i
  {
    var n := |ls|;
    if i < n - 1 {
      KeepInnerTail(ls, i + 1);
      assert KeepInner(ls, i) == [ls[i]] + KeepInner(ls, i + 1) by {
        assert !(i == 0 || i == n - 1);
      }
      ConsSlice(ls, i, n - 1, LastKept(ls));
    } else {
      assert KeepInner(ls, i) == LastKept(ls) + KeepInner(ls, i + 1);
      assert ls[i..n - 1] == [];
    }
  }

  /** An element in front of the slice that follows it extends the slice. */
  lemma ConsSlice<T>(s: seq<T>, i: nat, j: nat, tail: seq<T>)
    requires i < j <= |s|
    ensures [s[i]] + (s[i + 1..j] + tail) == s[i..j] + tail
  {
    assert s[i..j] == [s[i]] + s[i + 1..j];
  }

  /** The index filter applied on close is the slice without a blank first
      and a blank last line. */
  lemma KeepInnerIsInnerLines(ls: seq<string>)
    ensures KeepInner(ls, 0) == InnerLines(ls)
  {
    var n := |ls|;
    if n == 1 {
      assert KeepInner(ls, 1) == [];
    } else if n >= 2 {
      KeepInnerTail(ls, 1);
      var hi := if IsBlank(ls[n - 1]) then n - 1 else n;
      assert KeepInner(ls, 1) == ls[1..hi] by {
        if IsBlank(ls[n - 1]) {
          assert ls[1..n - 1] + [] == ls[1..hi];
        } else {
          assert ls[1..n - 1] + [ls[n - 1]] == ls[1..hi];
        }
      }
      if !IsBlank(ls[0]) {
        assert [ls[0]] + ls[1..hi] == ls[0..hi];
      }
    }
  }

  /** The closed text of an indented code block whose lines are `ls`. */
  lemma IndentedCodeTextOfLines(ls: seq<string>)
    requires |ls| >= 1 && forall i :: 0 <= i < |ls| ==> NoneIn(ls[i], {'\n'})
    ensures IndentedCodeText(Join(ls, "\n")) == Join(InnerLines(ls), "\n")
  {
    SplitJoin(ls, '\n', {'\n'});
    KeepInnerIsInnerLines(ls);
  }

  // ---------------------------------------------------------------------
  // Fenced code text

  /** A fence is opened with empty text and every content line is added
      behind a line break; on close exactly the content lines remain. */
  lemma FencedCodeTextOfLines(ls: seq<string>)
    requires forall i :: 0 <= i < |ls| ==> NoneIn(ls[i], {'\n'})
    ensures FencedCodeText(Prefixed(ls, "\n")) == Join(ls, "\n")
  {
    JoinCons("", ls, "\n");
    assert "" + Prefixed(ls, "\n") == Prefixed(ls, "\n");
    var parts := [""] + ls;
    assert forall i :: 0 <= i < |parts| ==> NoneIn(parts[i], {'\n'}) by {
      forall i | 0 <= i < |parts| ensures NoneIn(parts[i], {'\n'}) {
        if i > 0 { assert parts[i] == ls[i - 1]; }
      }
    }
    SplitJoin(parts, '\n', {'\n'});
    assert parts[1..] == ls;
  }

  // ---------------------------------------------------------------------
  // ATX headings and fences, read on the line

  /** `/^ {0,3}#{1,6}( .*|$)/`: at most three spaces, one to six `#`, then
      a space or the end of the line. Seven `#`, or `#` followed directly by
      anything but a space, is no heading. */
  lemma AtxMeaning(line: string)
    ensures var k := LeadingRun(line, ' ');
      MatchAtx(line).Some?
      <==> k <= 3 && 1 <= LeadingRun(line[k..], '#') <= 6
           && (k + LeadingRun(line[k..], '#') == |line| || line[k + LeadingRun(line[k..], '#')] == ' ')
  {
    var k := LeadingRun(line, ' ');
    if k <= 3 {
      var n := LeadingRun(line[k..], '#');
      if k + n < |line| {
        assert line[k + n..][0] == line[k + n];
      }
    }
  }

  /** The indentation recorded for an opening fence is the indentation of
      the line it came from. */
  lemma FenceIndentOfMarker(m: FenceMatch)
    requires ValidFence(m)
    ensures FenceIndent(FenceMarker(m)) == m.indent
  {
    LeadingRunOfRep(' ', m.indent, Rep(m.ch, m.run));
  }
}

=== FILE: text.dfy ===
/** Character classes and string helpers the parser relies on: the
    whitespace set of ECMAScript's `String.prototype.trim`, the line
    terminators that a regular-expression `.` refuses to match, leading
    runs, the `replace(/^ {0,n}/, "")` idiom, `split` and `join`. */
module Text {

  /** ECMAScript LineTerminator: LF, CR, LINE SEPARATOR, PARAGRAPH SEPARATOR.
      A regular-expression `.` (without the `s` flag) matches every other character. */
  predicate IsLineTerminator(c: char) {
    c == '\n' || c == '\r' || c == '\U{2028}' || c == '\U{2029}'
  }

  /** ECMAScript WhiteSpace (TAB, VT, FF, SPACE, NBSP, ZWNBSP and the other
      space separators of category Zs) together with LineTerminator: exactly
      the characters that `trim` removes. */
  predicate IsWhitespace(c: char) {
    || c == '\t' || c == '\U{000B}' || c == '\U{000C}' || c == ' '
    || c == '\U{00A0}' || c == '\U{FEFF}' || c == '\U{1680}'
    || ('\U{2000}' <= c <= '\U{200A}')
    || c == '\U{202F}' || c == '\U{205F}' || c == '\U{3000}'
    || IsLineTerminator(c)
  }

  predicate NoLineTerminator(s: string) {
    forall i :: 0 <= i < |s| ==> !IsLineTerminator(s[i])
  }

  predicate AllWhitespace(s: string) {
    forall i :: 0 <= i < |s| ==> IsWhitespace(s[i])
  }

  /** No character of `s` belongs to `seps`. */
  predicate NoneIn(s: string, seps: set<char>) {
    forall i :: 0 <= i < |s| ==> s[i] !in seps
  }

  function Min(a: nat, b: nat): nat {
    if a <= b then a else b
  }

  /** `n` copies of `c`. */
  function Rep(c: char, n: nat): (r: string)
    ensures |r| == n
    ensures forall i :: 0 <= i < n ==> r[i] == c
  {
    seq(n, _ => c)
  }

  /** Length of the longest prefix of `s` made only of `c`. */
  function LeadingRun(s: string, c: char): (n: nat)
    ensures n <= |s|
    ensures forall i :: 0 <= i < n ==> s[i] == c
    ensures n == |s| || s[n] != c
  {
    if |s| > 0 && s[0] == c then 1 + LeadingRun(s[1..], c) else 0
  }

  /** The run in front of a character other than `c` is exactly the run. */
  lemma LeadingRunOfRep(c: char, n: nat, t: string)
    requires t == [] || t[0] != c
    ensures LeadingRun(Rep(c, n) + t, c) == n
    decreases n
  {
    if n > 0 {
      assert (Rep(c, n) + t)[1..] == Rep(c, n - 1) + t;
      LeadingRunOfRep(c, n - 1, t);
    } else {
      assert Rep(c, n) + t == t;
    }
  }

  /** Length of the longest prefix of `s` free of line terminators, i.e. what
      a greedy `.*` consumes. */
  function LineLength(s: string): (n: nat)
    ensures n <= |s|
    ensures NoLineTerminator(s[..n])
    ensures n == |s| || IsLineTerminator(s[n])
  {
    if |s| > 0 && !IsLineTerminator(s[0]) then 1 + LineLength(s[1..]) else 0
  }

  /** `s.replace(/^ {0,max}/, "")`: removes as many leading spaces as there
      are, but no more than `max`. */
  function StripSpaces(s: string, max: nat): (r: string)
    ensures |r| <= |s|
    ensures |s| - |r| == Min(max, LeadingRun(s, ' '))
    ensures r == s[|s| - |r|..]
  {
    if max == 0 || |s| == 0 || s[0] != ' ' then s else StripSpaces(s[1..], max - 1)
  }

  /** `s` without its leading whitespace. */
  function TrimStart(s: string): (r: string)
    ensures |r| <= |s|
    ensures r == s[|s| - |r|..]
    ensures AllWhitespace(s[..|s| - |r|])
    ensures r == [] || !IsWhitespace(r[0])
  {
    if |s| > 0 && IsWhitespace(s[0]) then
      var r := TrimStart(s[1..]);
      assert s[..|s| - |r|] == [s[0]] + s[1..][..|s| - 1 - |r|];
      r
    else s
  }

  /** `s` without its trailing whitespace. */
  function TrimEnd(s: string): (r: string)
    ensures |r| <= |s|
    ensures r == s[..|r|]
    ensures AllWhitespace(s[|r|..])
    ensures r == [] || !IsWhitespace(r[|r| - 1])
  {
    if |s| > 0 && IsWhitespace(s[|s| - 1]) then
      var r := TrimEnd(s[..|s| - 1]);
      assert s[|r|..] == s[..|s| - 1][|r|..] + [s[|s| - 1]];
      r
    else s
  }

  /** `s.trim()`: the result starts and ends with a non-whitespace character
      unless it is empty. */
  function Trim(s: string): (r: string)
    ensures |r| <= |s|
    ensures r == [] || (!IsWhitespace(r[0]) && !IsWhitespace(r[|r| - 1]))
  {
    TrimEnd(TrimStart(s))
  }

  /** `r` is the part of `s` starting at `i`, with only whitespace before
      and after it. */
  predicate IsSpanOf(r: string, s: string, i: nat) {
    && i + |r| <= |s| && r == s[i..i + |r|]
    && AllWhitespace(s[..i]) && AllWhitespace(s[i + |r|..])
  }

  /** Trim keeps one contiguous part of `s` and removes only whitespace
      before and after it. */
  lemma TrimIsSpan(s: string)
    ensures exists i :: IsSpanOf(Trim(s), s, i)
  {
    var a := TrimStart(s);
    var r := TrimEnd(a);
    TrimSpan(s, a, r);
    assert Trim(s) == r;
  }

  lemma TrimSpan(s: string, a: string, r: string)
    requires |a| <= |s| && a == s[|s| - |a|..] && AllWhitespace(s[..|s| - |a|])
    requires |r| <= |a| && r == a[..|r|] && AllWhitespace(a[|r|..])
    ensures IsSpanOf(r, s, |s| - |a|)
  {
    var i := |s| - |a|;
    assert s[i + |r|..] == a[|r|..];
  }

  /** Trim leaves nothing exactly when every character is whitespace. */
  lemma TrimEmptyIffAllWhitespace(s: string)
    ensures Trim(s) == [] <==> AllWhitespace(s)
  {
    var a := TrimStart(s);
    var r := TrimEnd(a);
    if r == [] {
      assert a[|r|..] == a;
      assert a == [];
      assert s[..|s| - |a|] == s;
    }
    if AllWhitespace(s) {
      assert a == s[|s| - |a|..];
    }
  }

  /** `s.trim().length === 0`, stated as: every character is whitespace
      (`BlankIsTrimEmpty` connects the two readings). */
  predicate IsBlank(s: string) {
    AllWhitespace(s)
  }

  lemma BlankIsTrimEmpty(s: string)
    ensures IsBlank(s) <==> |Trim(s)| == 0
  {
    TrimEmptyIffAllWhitespace(s);
  }

  /** Trim removes exactly the whitespace padding: whatever is wrapped in
      whitespace, and itself neither starts nor ends with whitespace, is what
      Trim returns. */
  lemma {:induction false} TrimOfPadded(a: string, x: string, b: string)
    requires AllWhitespace(a) && AllWhitespace(b)
    requires x == [] || (!IsWhitespace(x[0]) && !IsWhitespace(x[|x| - 1]))
    ensures Trim(a + x + b) == x
  {
    var s := a + x + b;
    if x == [] {
      assert s == a + b;
      assert AllWhitespace(s) by {
        forall i | 0 <= i < |s| ensures IsWhitespace(s[i]) {
          if i < |a| { assert s[i] == a[i]; } else { assert s[i] == b[i - |a|]; }
        }
      }
    } else {
      TrimStartOfPadded(a, x + b);
      assert TrimStart(s) == x + b by { assert s == a + (x + b); }
      TrimEndOfPadded(x, b);
    }
  }

  lemma {:induction false} TrimStartOfPadded(a: string, t: string)
    requires AllWhitespace(a)
    requires t == [] || !IsWhitespace(t[0])
    ensures TrimStart(a + t) == t
    decreases |a|
  {
    if a != [] {
      assert (a + t)[1..] == a[1..] + t;
      TrimStartOfPadded(a[1..], t);
    } else {
      assert a + t == t;
    }
  }

  lemma {:induction false} TrimEndOfPadded(t: string, b: string)
    requires AllWhitespace(b)
    requires t == [] || !IsWhitespace(t[|t| - 1])
    ensures TrimEnd(t + b) == t
    decreases |b|
  {
    if b != [] {
      assert (t + b)[..|t + b| - 1] == t + b[..|b| - 1];
      TrimEndOfPadded(t, b[..|b| - 1]);
    } else {
      assert t + b == t;
    }
  }

  /** `s.split(c)` for every character `c` of `seps` at once, as
      `split(/[...]/)` does: the pieces between separators, in order, always
      at least one. */
  function Split(s: string, seps: set<char>): (parts: seq<string>)
    ensures |parts| >= 1
    ensures forall i :: 0 <= i < |parts| ==> NoneIn(parts[i], seps)
  {
    if s == [] then [[]]
    else
      var rest := Split(s[1..], seps);
      if s[0] in seps then [[]] + rest
      else [[s[0]] + rest[0]] + rest[1..]
  }

  /** `parts.join(sep)`. */
  function Join(parts: seq<string>, sep: string): string {
    if |parts| == 0 then []
    else if |parts| == 1 then parts[0]
    else parts[0] + sep + Join(parts[1..], sep)
  }

  /** A join starts with its first part, ends with its last part, and is as
      long as its parts with one separator between each two of them. */
  lemma {:induction false} JoinEnds(parts: seq<string>, sep: string)
    requires |parts| > 0
    ensures parts[0] <= Join(parts, sep)
    ensures var r, last := Join(parts, sep), parts[|parts| - 1];
      |last| <= |r| && r[|r| - |last|..] == last
    ensures |Join(parts, sep)| == PartsLength(parts) + (|parts| - 1) * |sep|
  {
    if |parts| > 1 {
      JoinEnds(parts[1..], sep);
      assert parts[1..][|parts| - 2] == parts[|parts| - 1];
    }
  }

  /** Total length of the parts. */
  function PartsLength(parts: seq<string>): nat {
    if parts == [] then 0 else |parts[0]| + PartsLength(parts[1..])
  }

  /** A split distributes over a separator: the pieces of `a`, then those
      of `b`. */
  lemma {:induction false} SplitAppend(a: string, c: char, b: string, seps: set<char>)
    requires c in seps
    ensures Split(a + [c] + b, seps) == Split(a, seps) + Split(b, seps)
  {
    if a == [] {
      assert a + [c] + b == [c] + b;
      SplitCons(c, b, seps);
    } else {
      var x, a' := a[0], a[1..];
      assert a + [c] + b == [x] + (a' + [c] + b);
      assert a == [x] + a';
      SplitAppend(a', c, b, seps);
      SplitCons(x, a' + [c] + b, seps);
      SplitCons(x, a', seps);
      SplitAppendStep(x in seps, x, Split(a', seps), Split(b, seps));
    }
  }

  /** The sequence algebra of one step of `SplitAppend`. */
  lemma SplitAppendStep(sep: bool, x: char, u: seq<string>, v: seq<string>)
    requires |u| >= 1
    ensures (if sep then [[]] + (u + v) else [[x] + (u + v)[0]] + (u + v)[1..])
      == (if sep then [[]] + u else [[x] + u[0]] + u[1..]) + v
  {
    assert (u + v)[0] == u[0] && (u + v)[1..] == u[1..] + v;
  }

  /** One step of `Split`: the first character either ends the first piece
      or joins it. */
  lemma SplitCons(x: char, r: string, seps: set<char>)
    ensures Split([x] + r, seps) ==
      if x in seps then [[]] + Split(r, seps) else [[x] + Split(r, seps)[0]] + Split(r, seps)[1..]
  {
    assert ([x] + r)[1..] == r;
  }

  /** Joining the pieces of a split on one character gives the text back. */
  lemma {:induction false} JoinSplit(s: string, c: char)
    ensures Join(Split(s, {c}), [c]) == s
  {
    if s != [] {
      var rest := Split(s[1..], {c});
      JoinSplit(s[1..], c);
      if s[0] == c {
        assert Split(s, {c}) == [[]] + rest;
        assert ([[]] + rest)[1..] == rest;
      } else {
        var parts := [[s[0]] + rest[0]] + rest[1..];
        assert Split(s, {c}) == parts;
        if |rest| == 1 {
          assert s == [s[0]] + s[1..];
        } else {
          assert parts[1..] == rest[1..];
          assert Join(rest, [c]) == rest[0] + [c] + Join(rest[1..], [c]);
          assert s == [s[0]] + s[1..];
        }
      }
    }
  }

  /** Splitting text that was joined with a separator gives the pieces back,
      provided no piece contains a separator. */
  lemma {:induction false} SplitJoin(parts: seq<string>, c: char, seps: set<char>)
    requires |parts| >= 1
    requires c in seps
    requires forall i :: 0 <= i < |parts| ==> NoneIn(parts[i], seps)
    ensures Split(Join(parts, [c]), seps) == parts
  {
    if |parts| == 1 {
      SplitPrefix(parts[0], [], seps);
      assert parts[0] + [] == parts[0];
    } else {
      var tail := Join(parts[1..], [c]);
      SplitJoin(parts[1..], c, seps);
      assert parts[0] + [c] + tail == parts[0] + ([c] + tail);
      SplitPrefix(parts[0], [c] + tail, seps);
      assert ([c] + tail)[1..] == tail;
      assert Split([c] + tail, seps) == [[]] + parts[1..];
      assert parts[0] + [] == parts[0];
      assert parts == [parts[0]] + parts[1..];
    }
  }

  /** A separator-free prefix is glued onto the first piece. */
  lemma {:induction false} SplitPrefix(p: string, t: string, seps: set<char>)
    requires NoneIn(p, seps)
    ensures Split(p + t, seps) == [p + Split(t, seps)[0]] + Split(t, seps)[1..]
    decreases |p|
  {
    if p == [] {
      assert p + t == t;
      assert p + Split(t, seps)[0] == Split(t, seps)[0];
      assert Split(t, seps) == [Split(t, seps)[0]] + Split(t, seps)[1..];
    } else {
      assert (p + t)[1..] == p[1..] + t;
      SplitPrefix(p[1..], t, seps);
      assert [p[0]] + (p[1..] + Split(t, seps)[0]) == p + Split(t, seps)[0];
    }
  }

  /** Every piece preceded by the separator: what a text accumulated
      line by line as `text + "\n" + line` gains. */
  function Prefixed(parts: seq<string>, sep: string): string
    decreases |parts|
  {
    if parts == [] then [] else sep + parts[0] + Prefixed(parts[1..], sep)
  }

  /** Accumulating after a first piece is joining. */
  lemma {:induction false} JoinCons(x: string, parts: seq<string>, sep: string)
    ensures Join([x] + parts, sep) == x + Prefixed(parts, sep)
    decreases |parts|
  {
    if parts == [] {
      assert [x] + parts == [x];
      assert x + [] == x;
    } else {
      var tail := parts[1..];
      assert ([x] + parts)[1..] == parts;
      assert parts == [parts[0]] + tail;
      JoinCons(parts[0], tail, sep);
      assert x + sep + (parts[0] + Prefixed(tail, sep)) == x + (sep + parts[0] + Prefixed(tail, sep));
    }
  }

  /** Accumulating one more piece. */
  lemma {:induction false} PrefixedSnoc(parts: seq<string>, x: string, sep: string)
    ensures Prefixed(parts + [x], sep) == Prefixed(parts, sep) + sep + x
    decreases |parts|
  {
    if parts == [] {
      assert parts + [x] == [x];
      assert Prefixed([x], sep) == sep + x + [];
    } else {
      assert (parts + [x])[1..] == parts[1..] + [x];
      PrefixedSnoc(parts[1..], x, sep);
    }
  }
}

=== FILE: wrappers.dfy ===
/** The optional-value datatype used throughout the model, standing in for
    the `undefined`-able fields of the parser's records. */
module Wrappers {

  datatype Option<+T> = None | Some(value: T) {

    /** The wrapped value, or `default` when there is none. */
    function GetOr(default: T): T {
      match this
      case Some(v) => v
      case None => default
    }
  }
}
